=== FILE: README.md ===
# Subscription cancellation flow, modelled in Dafny

This project models the resumable cancellation wizard of a Next.js application, together with the server
routes behind it. A subscriber opens the cancellation modal. The modal fetches a CSRF token and asks
`POST /api/cancel/start` for the user's cancellation row, creating one if needed. It then resumes on the
screen the stored row implies (`inferStepFromRow`). After that it walks one of two paths:

- **Found a job** (screens 1 to 4): three questionnaire screens, then completion.
- **Still looking** (screens 10 to 16): an up-front $10-off offer for experiment variant B, a reason
  screen, a usage screen, a confirm screen, and one of two end screens.

Every persisting button sends an allowlisted patch to `PATCH /api/cancel/update` and advances only once
the patch succeeds. The discount goes to `POST /api/cancel/continue` and completion to
`POST /api/cancel/complete`. A second, schema-validated API covers the same table:

- `POST /api/cancellation/draft` upserts the single draft of a fixed user and subscription. Its A/B
  variant is sticky.
- `POST /api/cancellation/commit` flips that draft to committed. Unless the discount was taken, it also
  moves the subscription to `pending_cancellation`.

Two double-submit CSRF checks guard the routes. A synchronous check uses the `csrf_token` cookie and the
`x-csrf-token` header. An asynchronous check uses the `csrf` cookie and the `x-csrf` header.

## How the project is laid out

**Values and helpers**
- `optional.dfy` holds the Option type.
- `js_text.dfy` models JavaScript `trim` and decimal digit strings.
- `json.dfy` models JSON values with JavaScript truthiness and property access.
- `http.dfy` holds requests and responses.
- `cancel_types.dfy` holds the table rows.

**The database**
- `store.dfy` has the `Database` class: two maps that the handlers reassign. It also has the query
  filters the handlers use.

**CSRF**
- `lib_csrf.dfy` is the synchronous check.
- `utils_csrf.dfy` is the asynchronous check and its unawaited call.
- `csrf_protocol.dfy` covers which cookie and header names the modal actually sends.

**Routes**
- There is one module per route, each with a `Post` or `Patch` method that changes the `Database`:
  `draft_route.dfy`, `commit_route.dfy`, `update_route.dfy`, `start_route.dfy`, `continue_route.dfy`,
  `complete_route.dfy`.
- `cancel_request.dfy` holds what the cancel routes read from the body.

**The modal**
- `gates.dfy` holds the Continue-button predicates, the amount syntax and cents conversion, and the
  discount.
- `resume.dfy` holds `inferStepFromRow` as a function, plus `mapReasonBack`.
- `cancel_modal.dfy` is the modal as a class: its React state as fields, one method per handler, and
  `sent` recording every request in order.

**The step components**
- `step_reasons.dfy` and `step_found_job_feedback.dfy` model the two step components' Continue checks as
  functions that return an error or a payload.

**Cross-cutting properties**
- `flow_consistency.dfy` links the modal to the update route: the patches it sends pass the allowlist,
  are written as sent, and resume on the screen the modal moved to.
- `scenarios.dfy` holds multi-call scenarios.

The model follows the code where the design intent and the code differ:

- The commit route is not atomic. The draft is committed before the subscription write, so a failed
  subscription write leaves a committed draft and a 400.
- A second commit answers 400, not a distinct conflict error.
- The cancel routes do not answer 403 for a missing or mismatched token: the check is never awaited.
- The start route's insert does not name `status`. With the column defaults taken as null, the inserted row's `status` is null rather than `draft`.
- The update route drops unknown keys, but lets the names inherited from `Object.prototype` through.
- The modal resumes every user as variant A.

## Model

| member | source | states |
|---|---|---|
| JsText.Trim | src/components/cancel-flow/CancelFlowModal.tsx:93 | `trim()` gives a text no longer than its input, with no whitespace at either end |
| JsText.TrimIdempotent | src/app/api/cancellation/draft/route.ts:14-16 | trimming an already trimmed text changes nothing |
| JsText.TrimEmptyIffBlank | src/components/cancel-flow/CancelFlowModal.tsx:94 | a text trims to empty exactly when it is all whitespace |
| JsText.TrimOfPadded | src/components/cancel-flow/steps/StepFoundJobFeedback.tsx:21 | whitespace added at either end of a text does not change its trimmed form |
| Json.Prop | src/components/cancel-flow/CancelFlowModal.tsx:42-47 | a property read is defined exactly when the value is an object that has the key |
| Http.JsonOrNull | src/app/api/cancel/update/route.ts:12 | `request.json().catch(() => null)` gives the parsed body, and an empty or malformed body reads as a falsy value |
| CancelTypes.NewRow | src/app/api/cancel/start/route.ts:48 | an inserted row carries the user, the subscription, the variant and the database timestamp; each of the other nineteen columns is null |
| LibCsrf.Rejects | src/lib/csrf.ts:20 | the check passes exactly when the cookie is present and non-empty and the header equals it |
| LibCsrf.AssertCsrf | src/lib/csrf.ts:17-23 | it throws exactly when the `csrf_token` cookie and the `x-csrf-token` header are not the same non-empty text; the error always carries status 403 and the default message |
| LibCsrf.MissingCookieRejected | src/lib/csrf.ts:18-20 | a missing cookie is rejected, whatever the header |
| LibCsrf.MissingHeaderRejected | src/lib/csrf.ts:19-20 | a missing header is rejected, whatever the cookie |
| LibCsrf.DifferentValuesRejected | src/lib/csrf.ts:20 | a cookie and a header that are both present but differ are rejected |
| LibCsrf.EmptyCountsAsMissing | src/lib/csrf.ts:20 | an empty cookie or an empty header is rejected like a missing one |
| LibCsrf.EqualTokensAccepted | src/lib/csrf.ts:20-23 | an equal, non-empty cookie and header are accepted |
| UtilsCsrf.Fails | src/app/api/_utils/csrf.ts:7 | the defaulted values pass exactly when they are equal and non-empty |
| UtilsCsrf.AssertCsrf | src/app/api/_utils/csrf.ts:3-11 | the promise rejects exactly when the `csrf` cookie and the `x-csrf` header are not the same non-empty text, with message "CSRF failed" and status 403 |
| UtilsCsrf.CallWithoutAwait | src/app/api/cancel/update/route.ts:6-10 | calling the async check without `await` returns a promise and never throws; the promise settles as the check does |
| UtilsCsrf.UnawaitedCheckNeverBlocks | src/app/api/cancel/update/route.ts:6-10 | the catch of the cancel routes never runs, even when the check rejects; the same holds at start 13-18, complete 6-10 and continue 6-10 |
| UtilsCsrf.AwaitedRejectionIs403 | src/app/api/cancel/start/route.ts:13-18 | had the check been awaited, its rejection would reach that catch as a 403 |
| CsrfProtocol.ModalRequest | src/components/cancel-flow/CancelFlowModal.tsx:98 | a modal request carries the issued token as the `csrf` cookie and as the `x-csrf` header |
| CsrfProtocol.ModalRequestFailsLibCheck | src/lib/csrf.ts:18-20 | every request the modal can send fails the synchronous check, because it has no `csrf_token` cookie |
| CsrfProtocol.ModalRequestPassesUtilsCheck | src/app/api/_utils/csrf.ts:4-7 | a modal request passes the asynchronous check exactly when the token is non-empty |
| Store.DraftIds | src/app/api/cancellation/draft/route.ts:28-34 | the draft query matches exactly the rows of the user and subscription whose status is `draft` |
| Store.UserRowIds | src/app/api/cancel/start/route.ts:34-37 | the start query matches exactly the user's rows, whatever their status |
| Store.LatestIds | src/app/api/cancel/start/route.ts:34-39 | the rows that `order('created_at', desc).limit(1)` may return are among the user's rows |
| Store.ActiveSubscriptionIds | src/app/api/cancel/start/route.ts:22-27 | the subscription query matches exactly the user's subscriptions whose status is `active` |
| Store.SetPending | src/app/api/cancel/complete/route.ts:22-25 | the update changes only the named subscription, which becomes `pending_cancellation` with the new timestamp; an unknown id changes nothing |
| Store.LatestExists | src/app/api/cancel/start/route.ts:38-42 | a user with at least one cancellation has a most recent one |
| Store.LatestAfterFirstInsert | src/app/api/cancel/start/route.ts:33-43 | after a user's first insert, that row is the only one the start query can return |
| CancelRequest.HasCancellationId | src/app/api/cancel/continue/route.ts:12 | a body that passes the truthiness test on `body` and `body.cancellationId` is an object with a `cancellationId` key |
| CancelRequest.Target | src/app/api/cancel/continue/route.ts:17 | `.eq('id', id)` matches the stored row whose id is the text `String(id)` of a string or an array id, and nothing for any other value |
| CancelRequest.SingletonArrayTargetsSameRow | src/app/api/cancel/continue/route.ts:12-17 | a one-element array `[id]` passes the id test and picks the same row as `id` itself |
| CancelRequest.LongArrayTargetsNoPlainId | src/app/api/cancel/continue/route.ts:17 | an array of two or more items is sent with a comma, so it picks no row when no stored id contains one |
| CommitRoute.Confirms | src/app/api/cancellation/commit/route.ts:9-15 | the body parses exactly when it is JSON whose `confirm` is `true` |
| CommitRoute.Committed | src/app/api/cancellation/commit/route.ts:28-32 | committing sets status `committed` and the timestamp, and changes no other column |
| CommitRoute.Cancels | src/app/api/cancellation/commit/route.ts:35 | `!draft.accepted_downsell` holds exactly when the discount is not stored as `true` |
| CommitRoute.Post | src/app/api/cancellation/commit/route.ts:11-49 | 403 exactly on a CSRF failure, and then nothing changes; 400 with no write for a bad body or for no single draft; the draft is committed before the subscription write, so a failed subscription write leaves it committed and answers 400; the subscription becomes pending exactly when the discount was not taken; the reply carries `!!accepted_downsell` |
| CommitRoute.NoDraftAfterCommit | src/app/api/cancellation/commit/route.ts:18-32 | after a commit, no draft of that user and subscription remains |
| CommitRoute.CommitTwice | src/app/api/cancellation/commit/route.ts:18-25 | after a successful commit, a second commit answers 400, and the subscription is updated at most once |
| CompleteRoute.Post | src/app/api/cancel/complete/route.ts:5-30 | 400 for a body without an id; 404 for a failed read or an unknown row, with nothing changed; otherwise the row's subscription becomes pending whatever `accepted_downsell` holds (500 if that write fails); the cancellations table never changes |
| ContinueRoute.AcceptDownsell | src/app/api/cancel/continue/route.ts:14-17 | only the matching row changes, and only `accepted_downsell` becomes `true`; an id matching no row changes nothing |
| ContinueRoute.Post | src/app/api/cancel/continue/route.ts:5-22 | 400 with no write for a body without an id; 500 with no write on a store error or an id that is neither a string nor an array; otherwise `{ok:true}`, with the discount recorded on that row |
| ContinueRoute.AcceptDownsellIdempotent | src/app/api/cancel/continue/route.ts:14-17 | taking the discount twice leaves the same table as taking it once |
| ContinueRoute.AcceptDownsellTouchesOneColumn | src/app/api/cancel/continue/route.ts:14-17 | every row keeps every column except `accepted_downsell`, its status included |
| StartRoute.StartedRow | src/app/api/cancel/start/route.ts:46-50 | the inserted row has the user, the subscription, the drawn variant, `accepted_downsell` false and a null status |
| StartRoute.Post | src/app/api/cancel/start/route.ts:12-57 | 404 with no write unless exactly one active subscription exists; otherwise the user's latest cancellation of any status is returned unchanged; failing that, exactly one row is inserted with the drawn variant (500 and no write if the insert fails) |
| StartRoute.StartTwice | src/app/api/cancel/start/route.ts:33-43 | a second start returns the row, and so the variant, that the first start created |
| DraftRoute.BoolField | src/app/api/cancellation/draft/route.ts:11-13 | an optional boolean is absent exactly when not sent, and present exactly when sent as a boolean; `null` is refused |
| DraftRoute.StringField | src/app/api/cancellation/draft/route.ts:14-16 | an optional text is present exactly when sent as a string whose trimmed form fits the limit, and the trimmed form is kept |
| DraftRoute.ParseDraft | src/app/api/cancellation/draft/route.ts:10-18 | anything but an object fails to parse |
| DraftRoute.ReadPayload | src/app/api/cancellation/draft/route.ts:24-25 | an empty body is the empty payload, and a body that is not JSON fails |
| DraftRoute.Post | src/app/api/cancellation/draft/route.ts:20-76 | 403 exactly on a CSRF failure, with its message; 400 with no write for a bad payload, a failed read or a failed write; an existing draft is rewritten in place and keeps its variant; otherwise exactly one row is inserted with the drawn variant; subscriptions never change |
| DraftRoute.UnknownKeysIgnored | src/app/api/cancellation/draft/route.ts:10-18 | keys outside the seven schema keys do not change what a body parses to |
| DraftRoute.ParsedTextsTrimmedAndBounded | src/app/api/cancellation/draft/route.ts:14-16 | every parsed text is trimmed and within 2000, 120 or 1000 characters |
| DraftRoute.PayloadRoundTrip | src/app/api/cancellation/draft/route.ts:10-18 | a payload with trimmed, bounded texts is exactly what its own JSON parses to |
| DraftRoute.ParseOfParsed | src/app/api/cancellation/draft/route.ts:10-25 | parsing is a projection: a parsed payload sent again parses to itself |
| DraftRoute.NullFieldRefused | src/app/api/cancellation/draft/route.ts:11-17 | a `null` for any schema key makes the parse fail |
| DraftRoute.WriteDraftIdempotent | src/app/api/cancellation/draft/route.ts:38-58 | saving the same payload twice gives the row one save gives, apart from `updated_at` |
| DraftRoute.WrittenRowIsDraft | src/app/api/cancellation/draft/route.ts:41-48 | a saved row has the fixed user and subscription, status `draft` and the chosen variant, and keeps its creation time and extra details |
| DraftRoute.SaveTwice | src/app/api/cancellation/draft/route.ts:28-68 | two successful saves from no draft write the same row id with the same variant |
| UpdateRoute.IndexKeys | src/app/api/cancel/update/route.ts:32 | `Object.keys` of an array gives only digit strings |
| UpdateRoute.OwnEntries | src/app/api/cancel/update/route.ts:32 | the patch's own entries are an object's fields, or an array's index keys |
| UpdateRoute.SafePatch | src/app/api/cancel/update/route.ts:31-34 | `safePatch` holds exactly the keys whose `allow[k]` is truthy (the eleven columns and the inherited `Object.prototype` names, less `__proto__`), with unchanged values |
| UpdateRoute.FilterPatch | src/app/api/cancel/update/route.ts:31-34 | the key-by-key loop builds exactly that `safePatch` |
| UpdateRoute.IntendedPatch | src/app/api/cancel/update/route.ts:17-30 | the intended filter keeps exactly the patch's keys that are among the eleven allowlisted columns |
| UpdateRoute.PatchRow | src/app/api/cancel/update/route.ts:36-41 | the database accepts the update exactly when every key names an allowlisted column and carries a value of its type |
| UpdateRoute.Patch | src/app/api/cancel/update/route.ts:5-45 | 400 with no write for a body lacking an id or an object `patch`; otherwise only the target row changes, to the filtered patch written over it, and the reply carries it; a store error, an unknown row, a patch that filters to nothing (which `.single()` then finds no row for) or a refused patch answers 500 with no write |
| UpdateRoute.SafePatchIdempotent | src/app/api/cancel/update/route.ts:31-34 | filtering a filtered patch again changes nothing |
| UpdateRoute.SafePatchKeepsAllowlisted | src/app/api/cancel/update/route.ts:18-34 | every allowlisted key survives with its value, and a key neither allowlisted nor inherited is dropped without error |
| UpdateRoute.SafePatchIsIntendedWithoutInheritedKeys | src/app/api/cancel/update/route.ts:18-34 | when no key is an inherited name, the filter equals the intended allowlist filter |
| UpdateRoute.InheritedKeyBreaksUpdate | src/app/api/cancel/update/route.ts:33-43 | an inherited name such as `constructor` passes the filter, and the update then fails |
| UpdateRoute.ArrayPatchIsEmpty | src/app/api/cancel/update/route.ts:13-34 | an array `patch` passes the payload check but filters to the empty patch |
| UpdateRoute.PatchRowKeepsProtected | src/app/api/cancel/update/route.ts:36-41 | a patch changes no column outside the allowlist |
| UpdateRoute.PatchRowIdempotent | src/app/api/cancel/update/route.ts:36-41 | applying the same patch twice gives the row one application gives |
| UpdateRoute.EmptyPatchKeepsRow | src/app/api/cancel/update/route.ts:36-41 | an empty patch leaves the row as it is |
| UpdateRoute.PatchRowWrites | src/app/api/cancel/update/route.ts:36-41 | each of the eleven allowlisted columns holds the value the patch sent for it, and a column the patch does not name keeps its value |
| Gates.EveryReasonAsksOneDetail | src/components/cancel-flow/CancelFlowModal.tsx:117-120 | every reason except `too_expensive` needs the 25-character text, and no reason can continue with both fields empty |
| Gates.CanContinueReasonIff | src/components/cancel-flow/CancelFlowModal.tsx:117-120 | the reason screen may continue exactly when a reason is chosen, the four text reasons have 25 trimmed characters, and `too_expensive` has an amount of the form digits, optionally followed by a point and one or two digits |
| Gates.IsAmountMatchesShape | src/components/cancel-flow/CancelFlowModal.tsx:119 | the amount scanner accepts exactly the texts of that regular expression |
| Gates.DollarString | src/components/cancel-flow/CancelFlowModal.tsx:44 | `String(cents / 100)` of a non-negative amount starts with a digit |
| Gates.DollarStringRoundTrip | src/components/cancel-flow/CancelFlowModal.tsx:44 | the dollar text shown for stored cents is an amount that converts back to those cents |
| Gates.Discounted | src/components/cancel-flow/CancelFlowModal.tsx:18 | the discounted price is defined exactly when the plan price is; it is never negative, and it is either 0 or the price less 1000 cents |
| Gates.DiscountedPrice | src/components/cancel-flow/CancelFlowModal.tsx:18 | a plan of at least $10 costs $10 less, a cheaper one becomes free, and the discount never raises a price |
| Gates.DiscountedMonotone | src/components/cancel-flow/CancelFlowModal.tsx:18 | a dearer plan is never discounted to less |
| Resume.StepIdsDistinct | src/components/cancel-flow/CancelFlowModal.tsx:8 | the screens have distinct numeric ids |
| Resume.Label | src/components/cancel-flow/CancelFlowModal.tsx:106-112 | every reason label is non-empty |
| Resume.ReasonFromKey | src/components/cancel-flow/CancelFlowModal.tsx:130 | a text is recognised exactly when it is one of the five key strings |
| Resume.ReasonKeyRoundTrip | src/components/cancel-flow/CancelFlowModal.tsx:130 | each key's string is recognised as that key |
| Resume.MapReasonBack | src/components/cancel-flow/CancelFlowModal.tsx:128-132 | a recovered key is the stored `reason_key` text, which must exist in the details |
| Resume.MapReasonBackOfKey | src/components/cancel-flow/CancelFlowModal.tsx:128-132 | a stored key string is read back as that key |
| Resume.MapReasonBackOfOther | src/components/cancel-flow/CancelFlowModal.tsx:130-131 | anything that is not one of the five keys reads back as no reason |
| Resume.MapReasonBackOfArray | src/components/cancel-flow/CancelFlowModal.tsx:129 | `toString` lets a one-element array through, so `["other"]` reads back as `other` |
| Resume.InferStep | src/components/cancel-flow/CancelFlowModal.tsx:24-56 | found-a-job screens exactly when `job_found` is true; still-looking screens exactly when it is false; the entry screen exactly when it is null; screen 16 exactly for a still-looking row with the discount taken; never screen 15 |
| Resume.DiscountTakenWins | src/components/cancel-flow/CancelFlowModal.tsx:48-49 | a taken discount resumes on screen 16, whatever the reason and details hold |
| Resume.FoundElsewhereRestarts | src/components/cancel-flow/CancelFlowModal.tsx:34 | a stored `found_job_with_mm` of `false` resumes on screen 1 |
| Resume.OnlyAppliedCounterChecked | src/components/cancel-flow/CancelFlowModal.tsx:34 | a row without the emailed and interviewed counters resumes past screen 1, although screen 1's gate would not let it continue |
| Resume.VariantMattersOnlyWithoutReason | src/components/cancel-flow/CancelFlowModal.tsx:50 | the variant changes the screen exactly for a still-looking row with no discount and a blank reason, and then A gives 11 and B gives 10 |
| Resume.StaleVariantSkipsOffer | src/components/cancel-flow/CancelFlowModal.tsx:50 | a variant-B row with no reason resumes on screen 11 under the mount-time variant A, where its own variant would give screen 10 |
| Resume.NeverResumesOnCancelled | src/components/cancel-flow/CancelFlowModal.tsx:24-56 | resume never lands on screen 15 |
| Resume.NullUsageResumesOnUsage | src/components/cancel-flow/CancelFlowModal.tsx:51 | a missing or `null` usage answer resumes on screen 12 |
| CancelModal.FoundAnswersOf | src/components/cancel-flow/CancelFlowModal.tsx:27-33 | the resumed feedback and visa texts are empty exactly when the columns are null or empty |
| CancelModal.PatchErrorText | src/components/cancel-flow/CancelFlowModal.tsx:99-101 | a refused update always shows a non-empty message: the server's `error` text when it sends one, otherwise "Update failed" |
| CancelModal.StartErrorText | src/components/cancel-flow/CancelFlowModal.tsx:64-73 | a failed start-up always shows a non-empty message; a refused start shows the server's `error` text when it sends one, otherwise "Start failed" |
| CancelModal.Modal.UpdateFor | src/components/cancel-flow/CancelFlowModal.tsx:96-98 | `patch` sends at most one update, and sends one exactly when there is a non-empty cancellation id |
| CancelModal.Modal.ShowsScreen | src/components/cancel-flow/CancelFlowModal.tsx:162-273 | only screens 4, 10, 15 and 16 can render nothing; screens 4 and 15 render only while the discount is not taken, and screen 16 always renders in a valid state |
| CancelModal.Modal.constructor | src/components/cancel-flow/CancelFlowModal.tsx:11-20 | the modal starts on the entry screen with variant A, no id, no token, no price, no error, no answers and nothing sent |
| CancelModal.Modal.ResumeFrom | src/components/cancel-flow/CancelFlowModal.tsx:24-56 | it loads the answers of the row's path (and `continued` on the still-looking path), moves to the inferred screen, and changes nothing else |
| CancelModal.Modal.Start | src/components/cancel-flow/CancelFlowModal.tsx:58-76 | a token failure only sets the error; a refused or unreachable start keeps the token and sets the error; a started row sets the token, id, variant and price and resumes under the mount-time variant A, loading the answers of the row's path only, and changes nothing else |
| CancelModal.Modal.Load | src/components/cancel-flow/CancelFlowModal.tsx:61-70 | the success path keeps the token, the id, the row's variant and the plan price, loads the answers of the row's path (the other path's answers and, off the still-looking path, `continued` keep their values), moves to the inferred screen, and changes nothing else |
| CancelModal.Modal.SendPatch | src/components/cancel-flow/CancelFlowModal.tsx:96-103 | without an id nothing is sent and it succeeds; otherwise one update is recorded and it succeeds exactly on an ok answer |
| CancelModal.Modal.ChooseFoundJob | src/components/cancel-flow/CancelFlowModal.tsx:168 | "Yes" moves to screen 1 and sends nothing |
| CancelModal.Modal.ChooseStillLooking | src/components/cancel-flow/CancelFlowModal.tsx:169 | "Not yet" moves to screen 10 before the patch, and stays there with the error when the patch fails |
| CancelModal.Modal.Render | src/components/cancel-flow/CancelFlowModal.tsx:229 | rendering screen 10 for variant A moves on to screen 11; any other render changes nothing |
| CancelModal.Modal.AnswerFoundWithMM | src/components/cancel-flow/CancelFlowModal.tsx:179 | the MigrateMate answer is recorded and nothing else changes |
| CancelModal.Modal.SelectRange | src/components/cancel-flow/CancelFlowModal.tsx:180-182 | a range button sets only its own counter, on screen 1 (and likewise on screen 12, lines 248-250) |
| CancelModal.Modal.SubmitJobDetails | src/components/cancel-flow/CancelFlowModal.tsx:184 | with all four answers given, the patch is sent and the modal moves to screen 2 only after it succeeds; on failure it stays on screen 1 with the error |
| CancelModal.Modal.EditFeedback | src/components/cancel-flow/CancelFlowModal.tsx:192 | the feedback text is recorded and nothing else changes |
| CancelModal.Modal.SubmitFeedback | src/components/cancel-flow/CancelFlowModal.tsx:194 | with 25 trimmed characters, the untrimmed text is sent and the modal moves to screen 3 only after success; on failure it stays with the error |
| CancelModal.Modal.AnswerLawyer | src/components/cancel-flow/CancelFlowModal.tsx:202 | the lawyer answer is recorded and nothing else changes |
| CancelModal.Modal.EditVisaType | src/components/cancel-flow/CancelFlowModal.tsx:203 | the visa text is recorded and nothing else changes |
| CancelModal.Modal.CompleteFound | src/components/cancel-flow/CancelFlowModal.tsx:204 | the patch is sent, then the complete request, then the modal moves to screen 4; a failed patch stops before completing; a complete request that gets no answer stops with its error; a non-ok answer is ignored |
| CancelModal.Modal.AcceptDiscount | src/components/cancel-flow/CancelFlowModal.tsx:224 | `continued` is set first and stays set; the patch, then the continue request, then screen 16, each stopping with the error as above |
| CancelModal.Modal.DeclineOffer | src/components/cancel-flow/CancelFlowModal.tsx:225 | "No thanks" on screen 10 moves to screen 11 and sends nothing |
| CancelModal.Modal.ChooseReason | src/components/cancel-flow/CancelFlowModal.tsx:237 | choosing a reason records it and clears the explanation and the amount |
| CancelModal.Modal.EditWillingToPay | src/components/cancel-flow/CancelFlowModal.tsx:238 | the amount text is recorded and nothing else changes |
| CancelModal.Modal.EditReasonText | src/components/cancel-flow/CancelFlowModal.tsx:239 | the explanation is recorded and nothing else changes |
| CancelModal.Modal.SubmitReason | src/components/cancel-flow/CancelFlowModal.tsx:240 | with the reason gate satisfied, the label and details are sent, and the modal moves to screen 12 only after success |
| CancelModal.Modal.DeclineInlineOffer | src/components/cancel-flow/CancelFlowModal.tsx:251 | "No thanks" in the offer box moves to screen 13 and sends nothing |
| CancelModal.Modal.SubmitUsage | src/components/cancel-flow/CancelFlowModal.tsx:253 | with all three counters given, the usage details are sent, and the modal moves to screen 13 only after success |
| CancelModal.Modal.ConfirmCancel | src/components/cancel-flow/CancelFlowModal.tsx:261 | the complete request is sent and the modal moves to screen 15 unless the request gets no answer |
| FlowConsistency.UpdateBody | src/components/cancel-flow/CancelFlowModal.tsx:98 | the body `patch` sends passes the update route's payload check and carries the patch unchanged |
| FlowConsistency.IdBody | src/components/cancel-flow/CancelFlowModal.tsx:261 | the `{ cancellationId }` body carries the id; before start-up it fails the id check |
| FlowConsistency.CallRequest | src/components/cancel-flow/CancelFlowModal.tsx:98 | each recorded call reaches its route with the body the modal built |
| FlowConsistency.AllowlistedPatchPassesFilter | src/app/api/cancel/update/route.ts:31-34 | a patch whose keys are all allowlisted leaves the filter unchanged |
| FlowConsistency.FlagPatchesWritable | src/components/cancel-flow/CancelFlowModal.tsx:169 | the "Not yet" and discount patches are accepted by the table |
| FlowConsistency.JobDetailsPatchWritable | src/components/cancel-flow/CancelFlowModal.tsx:184 | the screen 1 patch is accepted by the table |
| FlowConsistency.FoundTextPatchesWritable | src/components/cancel-flow/CancelFlowModal.tsx:194 | the feedback and visa patches are accepted by the table |
| FlowConsistency.ReasonPatchWritable | src/components/cancel-flow/CancelFlowModal.tsx:240 | the reason patch is accepted by the table |
| FlowConsistency.UsagePatchWritable | src/components/cancel-flow/CancelFlowModal.tsx:253 | the usage patch is accepted by the table |
| FlowConsistency.ModalPatchesNonEmpty | src/components/cancel-flow/CancelFlowModal.tsx:169-253 | every patch the modal builds names at least one column, so none of them is the empty update the route refuses |
| FlowConsistency.DeliverUpdate | src/app/api/cancel/update/route.ts:31-44 | a modal update answers 200 exactly when the row exists, the patch is not empty and the store does not fail, and the row then holds the patch as sent; otherwise 500 and nothing changes |
| FlowConsistency.EntryPatchResume | src/components/cancel-flow/CancelFlowModal.tsx:169 | after "Not yet", a resume shows screen 10 for B and screen 11 for A |
| FlowConsistency.JobDetailsPatchResume | src/components/cancel-flow/CancelFlowModal.tsx:184 | after screen 1, a resume shows screen 2 only when the job was found with MigrateMate; a stored `false` goes back to screen 1 |
| FlowConsistency.FeedbackPatchRow | src/components/cancel-flow/CancelFlowModal.tsx:194 | the feedback patch writes the feedback column and nothing else |
| FlowConsistency.VisaPatchRow | src/components/cancel-flow/CancelFlowModal.tsx:204 | the visa patch writes the lawyer and visa columns and nothing else |
| FlowConsistency.FeedbackPatchResume | src/components/cancel-flow/CancelFlowModal.tsx:194 | after screen 2, a resume shows screen 3 |
| FlowConsistency.VisaPatchResume | src/components/cancel-flow/CancelFlowModal.tsx:204 | after screen 3, a resume shows screen 4 |
| FlowConsistency.DiscountPatchResume | src/components/cancel-flow/CancelFlowModal.tsx:224 | after the discount patch, a resume shows screen 16, whatever else the row holds |
| FlowConsistency.ReasonPatchRow | src/components/cancel-flow/CancelFlowModal.tsx:240 | the reason patch writes the label and the details and nothing else |
| FlowConsistency.UsagePatchRow | src/components/cancel-flow/CancelFlowModal.tsx:253 | the usage patch replaces the whole of the details and nothing else |
| FlowConsistency.ReasonDetailsReadBack | src/components/cancel-flow/CancelFlowModal.tsx:42-47 | reading back the reason details restores the key, the explanation of a text reason and the non-zero amount, and finds the usage answers missing |
| FlowConsistency.UsageDetailsReadBack | src/components/cancel-flow/CancelFlowModal.tsx:42-47 | reading back the usage details restores the three counters and the reason, and loses the explanation |
| FlowConsistency.ReasonPatchResume | src/components/cancel-flow/CancelFlowModal.tsx:240 | after screen 11, a resume shows screen 12 and restores the reason, the explanation of a text reason, and the amount in dollar form when it is not zero |
| FlowConsistency.UsagePatchResume | src/components/cancel-flow/CancelFlowModal.tsx:253 | after screen 12, a resume shows screen 13; the explanation and the amount are gone from the row |
| FlowConsistency.ResumedAmountResubmits | src/components/cancel-flow/CancelFlowModal.tsx:44 | a resumed non-zero amount passes the amount check again, converts to the same cents, and sends the same reason patch |
| FlowConsistency.ZeroAmountNotRestored | src/components/cancel-flow/CancelFlowModal.tsx:44 | a stored amount of zero is not restored, and the field keeps its current text |
| Scenarios.DiscountThenComplete | src/app/api/cancel/complete/route.ts:22-25 | taking the discount and then completing both answer 200; the row keeps the discount, and the subscription is set to cancel all the same |
| Scenarios.FailedDiscountEndsOnEmptyScreen | src/components/cancel-flow/CancelFlowModal.tsx:265 | a failed "Get $10 off" in the offer box leaves `continued` set, so the flow ends on screen 15, which is then not shown |
| Scenarios.ResumeSkipsOffer | src/components/cancel-flow/CancelFlowModal.tsx:67-70 | a resumed variant-B row with no reason takes on variant B but opens screen 11, so the offer is skipped |
| Scenarios.DraftFromModal | src/app/api/cancellation/draft/route.ts:22 | the draft endpoint answers 403 to every request the modal could send, and writes nothing |
| Scenarios.CommitFromModal | src/app/api/cancellation/commit/route.ts:13 | the commit endpoint answers 403 to every request the modal could send, and writes nothing |
| Scenarios.ForgedUpdateIsWritten | src/app/api/cancel/update/route.ts:6-10 | an update with neither cookie nor header is written, and answers 200 whenever its patch is not empty |
| StepReasons.Find | src/components/cancel-flow/steps/StepReasons.tsx:29 | `find` returns the first entry with the code, and none exactly when no entry has it |
| StepReasons.RemountHandsOnSameAnswer | src/components/cancel-flow/steps/StepReasons.tsx:26-50 | mounting the step with the answer Continue handed on (code and trimmed follow-up, read back through the `?? ''` defaults) and clicking Continue again hands on the same answer, when the price test reads the trimmed text as it read the untrimmed one |
| StepReasons.SelectedCodes | src/components/cancel-flow/steps/StepReasons.tsx:11-18 | exactly the six table codes are found, and only `too_expensive` asks for a price |
| StepReasons.ContinueClickSucceedsIff | src/components/cancel-flow/steps/StepReasons.tsx:31-48 | Continue hands on the answer exactly when a code is chosen, `too_expensive` has a positive price and the five text codes have 5 trimmed characters; it hands on the code and the trimmed follow-up |
| StepReasons.NoCodeFirst | src/components/cancel-flow/steps/StepReasons.tsx:32-35 | without a code the error is "Please pick a reason.", whatever the follow-up |
| StepReasons.UnknownCodeSkipsChecks | src/components/cancel-flow/steps/StepReasons.tsx:36-45 | a code outside the table is handed on without any check on the follow-up |
| StepReasons.FollowUpTrimmed | src/components/cancel-flow/steps/StepReasons.tsx:47 | the follow-up handed on is trimmed |
| StepFoundJobFeedback.HandedOnIsFixedPoint | src/components/cancel-flow/steps/StepFoundJobFeedback.tsx:20-32 | clicking Continue on the answer and trimmed text it handed on hands on the same answer |
| StepFoundJobFeedback.RemountHandsOnSameAnswer | src/components/cancel-flow/steps/StepFoundJobFeedback.tsx:17-32 | mounting the step with the answer Continue handed on (read back through the `?? null` and `?? ''` defaults) and clicking Continue again hands on the same answer |
| StepFoundJobFeedback.HandleContinueIff | src/components/cancel-flow/steps/StepFoundJobFeedback.tsx:20-32 | Continue hands on the answer exactly with 25 trimmed characters and an answer given, and hands on the answer with the trimmed text |
| StepFoundJobFeedback.LengthCheckedFirst | src/components/cancel-flow/steps/StepFoundJobFeedback.tsx:21-29 | short text reports the length error, even when no answer is given |
| StepFoundJobFeedback.PaddingIgnored | src/components/cancel-flow/steps/StepFoundJobFeedback.tsx:21 | whitespace around the text changes nothing |

## Left out

**The JavaScript runtime**
- JSON numbers are integers. Fractional numbers, `Number(...)` coercions and floating point are not modelled.
- StepReasons.ContinueClick: the test `Number.isFinite(Number(follow)) && Number(follow) > 0` is a function parameter rather than a model of JavaScript number parsing.
- Gates.AmountToCents: `Math.round(parseFloat(s) * 100)` is computed exactly on the texts the amount regular expression accepts, without floating-point rounding.
- The `dollars` helper (`toFixed(0)`) only formats prices for display, so it is not modelled.
- Strings are sequences of characters: lengths count characters rather than UTF-16 code units, and no Unicode normalisation is done.
- CancelRequest.Target: ids are opaque strings and uuid syntax is not checked. A string or array id whose text is not a uuid makes the real query fail; the model lets it match no row instead. Only the continue route answers differently: 200 with nothing written, where the source answers 500.

**The database**
- The Supabase client is a `Database` class holding two maps, and src/lib/supabase is not part of this model.
- Store errors are boolean parameters, and their texts are replied as an unspecified message.
- An update whose filtered patch is empty is taken to fail: with no column to set, the store returns no row and `.single()` reports an error, as PostgREST does for an empty update body.
- Zod's error messages are likewise an unspecified message.
- Inserted rows carry a generated id and timestamp that are parameters.
- The table's column defaults are unknown, so every column an insert does not name is null.
- Column types are taken as declared. A typed value that does not fit its column makes the update fail.
- Only the columns listed in `cancel_types.dfy` exist.
- DraftRoute.Post: the `existing?.downsell_variant ?? null` fallback to a fresh draw for a stored null variant is not modelled, because the variant column is non-null here.
- Concurrency is left out: the check-then-act races of first-draft creation and of commit are not modelled, since every handler runs to completion alone.

**The client**
- `fetch` outcomes are parameters (`FetchReply`, `StartOutcome`).
- `localStorage`, the `onClose` callback, JSX rendering, styling, `Image`, `RangePills` and `Stepper` have no behaviour to verify.
- CancelModal.Modal.Load: React applies the effect's setters together after the effect finishes, so their order is not modelled.
- The modal's `useState` hooks are grouped into the `found` and `looking` answer records.
- CancelModal.FreeText, CancelModal.ResumedWillingToPay and CancelModal.UsageAnswer read a stored `extra_details` value of the wrong JSON type as absent. The source's `as` casts do nothing at runtime, so it keeps such a value: a text `willing_to_pay_cents` such as "1999" is divided to "19.99", a text `usage_applied` such as "3" becomes the counter and satisfies the usage gate, and a non-text `free_text` becomes the explanation and makes the `trim()` of the render throw. The model types the resumed answers, so these outcomes are not captured.
- An undefined `t.token` is modelled as a token string.
- The process-level effect of the unhandled rejection from the unawaited CSRF check is not modelled; only its consequence, that the request goes ahead, is.
- Other sources of input are parameters too: the random draw (`crypto.randomInt`), the clocks (`new Date()`) and the mock user id of the start route (src/lib/mock is not part of this model).

**Files not modelled**
- src/components/cancel-flow/steps/StepJobStatus.tsx and StepDownsell.tsx only emit constant payloads.
- The token issuer src/app/api/csrf/route.ts is random bytes plus cookie I/O. Only the cookie name it sets is used.
- src/types/cancel.ts and src/components/cancel-flow/types.ts have no behaviour. They only shape the datatypes.

**Gates without their own contract**
- Gates.CanContinue1, CanContinue2, CanCompleteFound and CanContinueUsage are the definitions themselves. They appear as preconditions of the matching submit methods.

=== FILE: cancel_modal.dfy ===
/**
 * The cancellation modal: the wizard's React state as the fields of a class, the start-up
 * effect that resumes from the stored row, and one method per button or input, each of which
 * records the requests it sends in `sent`.
 */
module CancelModal {
  import opened Optional
  import opened JsText
  import opened Json
  import opened CancelTypes
  import opened Gates
  import opened Resume

  /** The requests the modal sends after start-up. */
  datatype ApiCall =
    | UpdateCall(csrf: string, id: Id, patch: map<string, Json>)  // PATCH /api/cancel/update
    | CompleteCall(csrf: string, cancellationId: Option<Id>)                  // POST /api/cancel/complete
    | ContinueCall(csrf: string, cancellationId: Option<Id>)                  // POST /api/cancel/continue

  /** How an awaited `fetch` came back: a 2xx answer, another answer with its `error` text, or no answer. */
  datatype FetchReply = Ok | NotOk(error: Option<string>) | NetworkError(message: string)

  /** `j.error || 'Update failed'` for an answer, the `TypeError`'s message for no answer. */
  function PatchErrorText(reply: FetchReply): (text: string)
    ensures reply.NotOk? ==> text != ""
    ensures reply.NotOk? && text != "Update failed" ==> reply.error == Some(text)
  {
    match reply
    case Ok => ""
    case NotOk(e) => if e.Some? && e.value != "" then e.value else "Update failed"
    case NetworkError(m) => m
  }

  /** How the start-up effect ended. */
  datatype StartOutcome =
    | TokenFailed(message: string)                                  // GET /api/csrf threw
    | StartRejected(token: string, error: Option<string>)           // start answered, not ok
    | StartUnreachable(token: string, message: string)              // start threw
    | Started(token: string, id: Id, row: CancellationRow, monthlyPrice: Option<int>)

  /** `(e as Error).message || 'Something went wrong'`, with `json?.error || 'Start failed'` for a refusal. */
  function StartErrorText(o: StartOutcome): (text: string)
    requires !o.Started?
    ensures text != ""
    ensures o.StartRejected? && text != "Start failed" ==> o.error == Some(text)
  {
    match o
    case TokenFailed(m) => if m != "" then m else "Something went wrong"
    case StartRejected(_, e) => if e.Some? && e.value != "" then e.value else "Start failed"
    case StartUnreachable(_, m) => if m != "" then m else "Something went wrong"
  }

  /** The variant `inferStepFromRow` sees: the one in the state when the effect was created. */
  const MountVariant: Variant := A

  // ---- what the resume reads from the stored row ----

  /** `ed?.free_text as string || ''`; a value that is not a string is read as absent. */
  function FreeText(ed: Json): string {
    var v := Prop(ed, "free_text");
    if v.Some? && v.value.JStr? then v.value.s else ""
  }

  /** `if (ed?.willing_to_pay_cents) setWillingToPay(String(cents / 100))`; a non-number is read as absent. */
  function ResumedWillingToPay(ed: Json, current: string): string {
    var v := Prop(ed, "willing_to_pay_cents");
    if v.Some? && v.value.JNum? && v.value.n != 0 then DollarString(v.value.n) else current
  }

  /** `ed?.usage_x as number ?? null`; a value that is not a number is read as absent. */
  function UsageAnswer(ed: Json, key: string): Option<int> {
    var v := Prop(ed, key);
    if v.Some? && v.value.JNum? then Some(v.value.n) else None
  }

  // ---- the patches the buttons send ----

  const EntryPatch: map<string, Json> := map["job_found" := JBool(false)]

  const DiscountPatch: map<string, Json> := map["accepted_downsell" := JBool(true)]

  function JobDetailsPatch(foundWithMM: bool, applied: int, emailed: int, interviews: int): map<string, Json> {
    map["job_found" := JBool(true), "found_job_with_mm" := JBool(foundWithMM), "roles_applied_mm" := JNum(applied),
        "companies_emailed" := JNum(emailed), "companies_interviewed" := JNum(interviews)]
  }

  function FeedbackPatch(feedback: string): map<string, Json> {
    map["feedback_text" := JStr(feedback)]
  }

  function VisaPatch(hasLawyer: bool, visaType: string): map<string, Json> {
    map["company_provides_lawyer" := JBool(hasLawyer), "visa_type" := JStr(visaType)]
  }

  /** The `extra_details` the reason screen sends: the key, and the amount in cents or the untrimmed text. */
  function ReasonDetails(k: ReasonKey, reasonText: string, willingToPay: string): Json
    requires WillingValid(Some(k), willingToPay)
  {
    JObj(map[
      "reason_key" := JStr(k.Key()),
      "willing_to_pay_cents" := if k == TooExpensive then JNum(AmountToCents(willingToPay)) else JNull,
      "free_text" := if NeedsText25(Some(k)) then JStr(reasonText) else JNull])
  }

  /** The reason screen's patch: the label and the details. */
  function ReasonPatch(k: ReasonKey, reasonText: string, willingToPay: string): map<string, Json>
    requires WillingValid(Some(k), willingToPay)
  {
    map["reason" := JStr(Label(k)), "extra_details" := ReasonDetails(k, reasonText, willingToPay)]
  }

  /** The `extra_details` the usage screen sends, which replace the stored ones whole. */
  function UsageDetails(reason: Option<ReasonKey>, applied: int, emailed: int, interviews: int): Json {
    JObj(map[
      "reason_key" := if reason.Some? then JStr(reason.value.Key()) else JNull,
      "usage_applied" := JNum(applied), "usage_emailed" := JNum(emailed), "usage_interviews" := JNum(interviews)])
  }

  /** The usage screen's patch. */
  function UsagePatch(reason: Option<ReasonKey>, applied: int, emailed: int, interviews: int): map<string, Json> {
    map["extra_details" := UsageDetails(reason, applied, emailed, interviews)]
  }

  /** The answer buttons of the two counter screens. */
  datatype Pill = Applied | Emailed | Interviews | UsageApplied | UsageEmailed | UsageInterviews {
    function Screen(): Step {
      if this in {Applied, Emailed, Interviews} then JobDetails else Usage
    }
  }

  /** The answers of the found-a-job screens 1 to 3. */
  datatype FoundAnswers = FoundAnswers(
    foundWithMM: Option<bool>, applied: Option<int>, emailed: Option<int>, interviews: Option<int>,
    feedback: string, hasLawyer: Option<bool>, visaType: string)

  /** The answers of the still-looking screens 11 and 12. */
  datatype LookingAnswers = LookingAnswers(
    reason: Option<ReasonKey>, reasonText: string, willingToPay: string,
    uApplied: Option<int>, uEmailed: Option<int>, uInterviews: Option<int>)

  const NoFoundAnswers := FoundAnswers(None, None, None, None, "", None, "")
  const NoLookingAnswers := LookingAnswers(None, "", "", None, None, None)

  /** The setters `inferStepFromRow` calls for a row on the found-a-job path. */
  function FoundAnswersOf(row: CancellationRow): (f: FoundAnswers)
    ensures f.feedback == "" <==> row.feedbackText.None? || row.feedbackText == Some("")
    ensures f.visaType == "" <==> row.visaType.None? || row.visaType == Some("")
  {
    FoundAnswers(row.foundJobWithMm, row.rolesAppliedMm, row.companiesEmailed, row.companiesInterviewed,
                 row.feedbackText.GetOr(""), row.companyProvidesLawyer, row.visaType.GetOr(""))
  }

  /** The setters `inferStepFromRow` calls for a row on the still-looking path; the amount is kept when none is stored. */
  function LookingAnswersOf(row: CancellationRow, current: LookingAnswers): LookingAnswers {
    var ed := Details(row);
    LookingAnswers(MapReasonBack(row), FreeText(ed), ResumedWillingToPay(ed, current.willingToPay),
                   UsageAnswer(ed, "usage_applied"), UsageAnswer(ed, "usage_emailed"),
                   UsageAnswer(ed, "usage_interviews"))
  }

  datatype ModalState = ModalState(
    step: Step, cancellationId: Option<Id>, variant: Variant, csrf: string, planCents: Option<int>,
    error: string, found: FoundAnswers, looking: LookingAnswers, continued: bool, sent: seq<ApiCall>)

  class Modal {
    var step: Step
    var cancellationId: Option<Id>
    var variant: Variant
    var csrf: string
    var planCents: Option<int>
    var error: string
    var found: FoundAnswers
    var looking: LookingAnswers
    /** `continued`: the discount was taken. */
    var continued: bool
    /** Every request sent so far, oldest first. */
    var sent: seq<ApiCall>

    function State(): ModalState
      reads this
    {
      ModalState(step, cancellationId, variant, csrf, planCents, error, found, looking, continued, sent)
    }

    /** The discount screen is only ever reached with the discount marked as taken. */
    predicate Valid()
      reads this
    {
      step == DiscountDone ==> continued
    }

    /** `if (!cancellationId) return`: without an id, `patch` sends nothing and succeeds. */
    predicate HasId()
      reads this
    {
      cancellationId.Some? && cancellationId.value != ""
    }

    /** The update `patch(partial)` sends: none without an id. */
    function UpdateFor(partial: map<string, Json>): (calls: seq<ApiCall>)
      reads this
      ensures |calls| <= 1
      ensures calls != [] <==> HasId()
    {
      if HasId() then [UpdateCall(csrf, cancellationId.value, partial)] else []
    }

    /** What the modal shows: screens 4 and 15 need `!continued`, 16 needs `continued`, 10 needs variant B. */
    predicate ShowsScreen()
      reads this
      ensures Valid() && step == DiscountDone ==> ShowsScreen()
      ensures step in {FoundDone, CancelDone} && ShowsScreen() ==> !continued
      ensures !ShowsScreen() ==> step in {FoundDone, CancelDone, DiscountDone, DownsellOffer}
    {
      match step
      case FoundDone => !continued
      case CancelDone => !continued
      case DiscountDone => continued
      case DownsellOffer => variant == B
      case _ => true
    }

    constructor ()
      ensures State() == ModalState(Entry, None, A, "", None, "", NoFoundAnswers, NoLookingAnswers, false, [])
      ensures Valid()
    {
      step := Entry;
      cancellationId := None;
      variant := A;
      csrf := "";
      planCents := None;
      error := "";
      found := NoFoundAnswers;
      looking := NoLookingAnswers;
      continued := false;
      sent := [];
    }

    /** `inferStepFromRow(row)`: load the answers of the row's path, then pick the screen. */
    method ResumeFrom(row: CancellationRow)
      requires Valid()
      modifies this
      ensures Valid()
      ensures csrf == old(csrf) && cancellationId == old(cancellationId) && variant == old(variant)
      ensures planCents == old(planCents) && error == old(error) && sent == old(sent)
      ensures row.jobFound == Some(true) ==>
                State() == old(State()).(step := InferStep(row, MountVariant), found := FoundAnswersOf(row))
      ensures row.jobFound == Some(false) ==>
                State() == old(State()).(step := InferStep(row, MountVariant),
                                         looking := LookingAnswersOf(row, old(looking)),
                                         continued := row.acceptedDownsell == Some(true))
      ensures row.jobFound.None? ==> State() == old(State()).(step := Entry)
      ensures step == InferStep(row, MountVariant)
      ensures row.jobFound == Some(true) ==> found == FoundAnswersOf(row)
      ensures row.jobFound == Some(false) ==>
                looking == LookingAnswersOf(row, old(looking)) && continued == (row.acceptedDownsell == Some(true))
    {
      match row.jobFound {
        case Some(true) =>
          found := FoundAnswersOf(row);
        case Some(false) =>
          looking := LookingAnswersOf(row, looking);
          continued := row.acceptedDownsell == Some(true);
        case None =>
      }
      step := InferStep(row, MountVariant);
    }

    /** The start-up effect: fetch the token, start or resume, and load the returned row. */
    method Start(outcome: StartOutcome)
      requires Valid()
      modifies this
      ensures Valid()
      ensures outcome.TokenFailed? ==> State() == old(State()).(error := StartErrorText(outcome))
      ensures outcome.StartRejected? || outcome.StartUnreachable? ==>
                State() == old(State()).(csrf := outcome.token, error := StartErrorText(outcome))
      ensures outcome.Started? ==>
                State() == old(State()).(
                  csrf := outcome.token, cancellationId := Some(outcome.id),
                  variant := outcome.row.downsellVariant, planCents := outcome.monthlyPrice,
                  step := InferStep(outcome.row, MountVariant),
                  found := if outcome.row.jobFound == Some(true) then FoundAnswersOf(outcome.row) else old(found),
                  looking := if outcome.row.jobFound == Some(false) then LookingAnswersOf(outcome.row, old(looking)) else old(looking),
                  continued := if outcome.row.jobFound == Some(false) then outcome.row.acceptedDownsell == Some(true) else old(continued))
    {
      if outcome.TokenFailed? {
        error := StartErrorText(outcome);
        return;
      }
      if !outcome.Started? {
        csrf := outcome.token;
        error := StartErrorText(outcome);
        return;
      }
      Load(outcome.token, outcome.id, outcome.row, outcome.monthlyPrice);
    }

    /** The success path of the start-up effect: keep the token, the id, the variant and the price, then resume. */
    method Load(token: string, id: Id, row: CancellationRow, monthlyPrice: Option<int>)
      requires Valid()
      modifies this
      ensures Valid()
      ensures State() == old(State()).(
                csrf := token, cancellationId := Some(id), variant := row.downsellVariant, planCents := monthlyPrice,
                step := InferStep(row, MountVariant),
                found := if row.jobFound == Some(true) then FoundAnswersOf(row) else old(found),
                looking := if row.jobFound == Some(false) then LookingAnswersOf(row, old(looking)) else old(looking),
                continued := if row.jobFound == Some(false) then row.acceptedDownsell == Some(true) else old(continued))
    {
      // React applies these setters together, so resuming first changes nothing
      ResumeFrom(row);
      csrf := token;
      cancellationId := Some(id);
      variant := row.downsellVariant;
      planCents := monthlyPrice;
    }

    /** `patch(partial)`: send the update unless there is no id; `ok` when it did not throw. */
    method SendPatch(partial: map<string, Json>, reply: FetchReply) returns (ok: bool)
      modifies this
      ensures ok <==> !old(HasId()) || reply.Ok?
      ensures State() == old(State()).(sent := old(sent) + old(UpdateFor(partial)))
    {
      if !HasId() {
        return true;
      }
      sent := sent + [UpdateCall(csrf, cancellationId.value, partial)];
      ok := reply.Ok?;
    }

    /** Screen 0, "Yes, I've found a job". */
    method ChooseFoundJob()
      requires Valid() && step == Entry
      modifies this
      ensures Valid() && State() == old(State()).(step := JobDetails)
    {
      step := JobDetails;
    }

    /** Screen 0, "Not yet": the screen changes before the patch is sent, and stays if it fails. */
    method ChooseStillLooking(reply: FetchReply)
      requires Valid() && step == Entry
      modifies this
      ensures Valid()
      ensures State() == old(State()).(step := DownsellOffer, sent := old(sent) + old(UpdateFor(EntryPatch)),
                                       error := if !old(HasId()) || reply.Ok? then old(error) else PatchErrorText(reply))
    {
      step := DownsellOffer;
      var ok := SendPatch(EntryPatch, reply);
      if !ok {
        error := PatchErrorText(reply);
      }
    }

    /** Screen 10 as rendered for variant A: rendering itself moves on to the reason screen. */
    method Render()
      requires Valid()
      modifies this
      ensures Valid()
      ensures old(step) == DownsellOffer && variant == A ==> State() == old(State()).(step := Reason)
      ensures !(old(step) == DownsellOffer && variant == A) ==> State() == old(State())
    {
      if step == DownsellOffer && variant == A {
        step := Reason;
      }
    }

    /** Screen 1, "Did you find this job with MigrateMate?" */
    method AnswerFoundWithMM(b: bool)
      requires Valid() && step == JobDetails
      modifies this
      ensures Valid() && State() == old(State()).(found := old(found).(foundWithMM := Some(b)))
    {
      found := found.(foundWithMM := Some(b));
    }

    /** A range button of screen 1 or screen 12. */
    method SelectRange(pill: Pill, i: RangeIndex)
      requires Valid() && step == pill.Screen()
      modifies this
      ensures Valid()
      ensures pill.Screen() == JobDetails ==> State() == old(State()).(found := old(found).(
                applied := if pill == Applied then Some(i as int) else old(found.applied),
                emailed := if pill == Emailed then Some(i as int) else old(found.emailed),
                interviews := if pill == Interviews then Some(i as int) else old(found.interviews)))
      ensures pill.Screen() == Usage ==> State() == old(State()).(looking := old(looking).(
                uApplied := if pill == UsageApplied then Some(i as int) else old(looking.uApplied),
                uEmailed := if pill == UsageEmailed then Some(i as int) else old(looking.uEmailed),
                uInterviews := if pill == UsageInterviews then Some(i as int) else old(looking.uInterviews)))
    {
      match pill
      case Applied => found := found.(applied := Some(i as int));
      case Emailed => found := found.(emailed := Some(i as int));
      case Interviews => found := found.(interviews := Some(i as int));
      case UsageApplied => looking := looking.(uApplied := Some(i as int));
      case UsageEmailed => looking := looking.(uEmailed := Some(i as int));
      case UsageInterviews => looking := looking.(uInterviews := Some(i as int));
    }

    /** Screen 1, Continue: persist the answers, then go to screen 2. */
    method SubmitJobDetails(reply: FetchReply)
      requires Valid() && step == JobDetails
      requires CanContinue1(found.foundWithMM, found.applied, found.emailed, found.interviews)
      modifies this
      ensures Valid()
      ensures var p := old(JobDetailsPatch(found.foundWithMM.value, found.applied.value, found.emailed.value, found.interviews.value));
              var sent' := old(sent) + old(UpdateFor(p));
              if !old(HasId()) || reply.Ok? then State() == old(State()).(sent := sent', step := Feedback)
              else State() == old(State()).(sent := sent', error := PatchErrorText(reply))
    {
      var ok := SendPatch(JobDetailsPatch(found.foundWithMM.value, found.applied.value, found.emailed.value, found.interviews.value), reply);
      if ok {
        step := Feedback;
      } else {
        error := PatchErrorText(reply);
      }
    }

    /** Screen 2, the feedback text area. */
    method EditFeedback(text: string)
      requires Valid() && step == Feedback
      modifies this
      ensures Valid() && State() == old(State()).(found := old(found).(feedback := text))
    {
      found := found.(feedback := text);
    }

    /** Screen 2, Continue: the text is sent as typed, not trimmed. */
    method SubmitFeedback(reply: FetchReply)
      requires Valid() && step == Feedback && CanContinue2(found.feedback)
      modifies this
      ensures Valid()
      ensures var sent' := old(sent) + old(UpdateFor(FeedbackPatch(found.feedback)));
              if !old(HasId()) || reply.Ok? then State() == old(State()).(sent := sent', step := Visa)
              else State() == old(State()).(sent := sent', error := PatchErrorText(reply))
    {
      var ok := SendPatch(FeedbackPatch(found.feedback), reply);
      if ok {
        step := Visa;
      } else {
        error := PatchErrorText(reply);
      }
    }

    /** Screen 3, the lawyer question. */
    method AnswerLawyer(b: bool)
      requires Valid() && step == Visa
      modifies this
      ensures Valid() && State() == old(State()).(found := old(found).(hasLawyer := Some(b)))
    {
      found := found.(hasLawyer := Some(b));
    }

    /** Screen 3, the visa input, shown once the lawyer question is answered. */
    method EditVisaType(text: string)
      requires Valid() && step == Visa && found.hasLawyer.Some?
      modifies this
      ensures Valid() && State() == old(State()).(found := old(found).(visaType := text))
    {
      found := found.(visaType := text);
    }

    /**
     * Screen 3, "Complete cancellation": persist, ask the server to complete, then show screen 4.
     * The complete request's answer is not looked at; only a request that never arrives stops the flow.
     */
    method CompleteFound(patchReply: FetchReply, completeReply: FetchReply)
      requires Valid() && step == Visa && CanCompleteFound(found.hasLawyer, found.visaType)
      modifies this
      ensures Valid()
      ensures var update := old(sent) + old(UpdateFor(VisaPatch(found.hasLawyer.value, found.visaType)));
              var complete := update + [CompleteCall(csrf, cancellationId)];
              if old(HasId()) && !patchReply.Ok? then
                State() == old(State()).(sent := update, error := PatchErrorText(patchReply))
              else if completeReply.NetworkError? then
                State() == old(State()).(sent := complete, error := completeReply.message)
              else State() == old(State()).(sent := complete, step := FoundDone)
    {
      var ok := SendPatch(VisaPatch(found.hasLawyer.value, found.visaType), patchReply);
      if !ok {
        error := PatchErrorText(patchReply);
        return;
      }
      sent := sent + [CompleteCall(csrf, cancellationId)];
      if completeReply.NetworkError? {
        error := completeReply.message;
        return;
      }
      step := FoundDone;
    }

    /**
     * "Get $10 off" on screen 10 (variant B) or in the offer box of screen 12: `continued` is set
     * first, so it stays set when a request fails.
     */
    method AcceptDiscount(patchReply: FetchReply, continueReply: FetchReply)
      requires Valid() && variant == B && (step == DownsellOffer || (step == Usage && !continued))
      modifies this
      ensures Valid()
      ensures var update := old(sent) + old(UpdateFor(DiscountPatch));
              var resume := update + [ContinueCall(csrf, cancellationId)];
              if old(HasId()) && !patchReply.Ok? then
                State() == old(State()).(continued := true, sent := update, error := PatchErrorText(patchReply))
              else if continueReply.NetworkError? then
                State() == old(State()).(continued := true, sent := resume, error := continueReply.message)
              else State() == old(State()).(continued := true, sent := resume, step := DiscountDone)
    {
      continued := true;
      var ok := SendPatch(DiscountPatch, patchReply);
      if !ok {
        error := PatchErrorText(patchReply);
        return;
      }
      sent := sent + [ContinueCall(csrf, cancellationId)];
      if continueReply.NetworkError? {
        error := continueReply.message;
        return;
      }
      step := DiscountDone;
    }

    /** Screen 10, "No thanks, continue to cancel". */
    method DeclineOffer()
      requires Valid() && step == DownsellOffer && variant == B
      modifies this
      ensures Valid() && State() == old(State()).(step := Reason)
    {
      step := Reason;
    }

    /** Screen 11, a reason radio button: the detail fields are cleared. */
    method ChooseReason(k: ReasonKey)
      requires Valid() && step == Reason
      modifies this
      ensures Valid()
      ensures State() == old(State()).(looking := old(looking).(reason := Some(k), reasonText := "", willingToPay := ""))
    {
      looking := looking.(reason := Some(k), reasonText := "", willingToPay := "");
    }

    /** Screen 11, the amount input shown for `too_expensive`. */
    method EditWillingToPay(text: string)
      requires Valid() && step == Reason && looking.reason == Some(TooExpensive)
      modifies this
      ensures Valid() && State() == old(State()).(looking := old(looking).(willingToPay := text))
    {
      looking := looking.(willingToPay := text);
    }

    /** Screen 11, the explanation shown for the other reasons. */
    method EditReasonText(text: string)
      requires Valid() && step == Reason && NeedsText25(looking.reason)
      modifies this
      ensures Valid() && State() == old(State()).(looking := old(looking).(reasonText := text))
    {
      looking := looking.(reasonText := text);
    }

    /** Screen 11, Continue. */
    method SubmitReason(reply: FetchReply)
      requires Valid() && step == Reason
      requires CanContinueReason(looking.reason, looking.reasonText, looking.willingToPay)
      modifies this
      ensures Valid()
      ensures var p := old(ReasonPatch(looking.reason.value, looking.reasonText, looking.willingToPay));
              var sent' := old(sent) + old(UpdateFor(p));
              if !old(HasId()) || reply.Ok? then State() == old(State()).(sent := sent', step := Usage)
              else State() == old(State()).(sent := sent', error := PatchErrorText(reply))
    {
      var ok := SendPatch(ReasonPatch(looking.reason.value, looking.reasonText, looking.willingToPay), reply);
      if ok {
        step := Usage;
      } else {
        error := PatchErrorText(reply);
      }
    }

    /** Screen 12, "No thanks" in the offer box. */
    method DeclineInlineOffer()
      requires Valid() && step == Usage && variant == B && !continued
      modifies this
      ensures Valid() && State() == old(State()).(step := Confirm)
    {
      step := Confirm;
    }

    /** Screen 12, Continue. */
    method SubmitUsage(reply: FetchReply)
      requires Valid() && step == Usage
      requires CanContinueUsage(looking.uApplied, looking.uEmailed, looking.uInterviews)
      modifies this
      ensures Valid()
      ensures var p := old(UsagePatch(looking.reason, looking.uApplied.value, looking.uEmailed.value, looking.uInterviews.value));
              var sent' := old(sent) + old(UpdateFor(p));
              if !old(HasId()) || reply.Ok? then State() == old(State()).(sent := sent', step := Confirm)
              else State() == old(State()).(sent := sent', error := PatchErrorText(reply))
    {
      var ok := SendPatch(UsagePatch(looking.reason, looking.uApplied.value, looking.uEmailed.value, looking.uInterviews.value), reply);
      if ok {
        step := Confirm;
      } else {
        error := PatchErrorText(reply);
      }
    }

    /** Screen 13, "Complete cancellation": the answer is not looked at. */
    method ConfirmCancel(completeReply: FetchReply)
      requires Valid() && step == Confirm
      modifies this
      ensures Valid()
      ensures var sent' := old(sent) + [CompleteCall(csrf, cancellationId)];
              if completeReply.NetworkError? then State() == old(State()).(sent := sent', error := completeReply.message)
              else State() == old(State()).(sent := sent', step := CancelDone)
    {
      sent := sent + [CompleteCall(csrf, cancellationId)];
      if completeReply.NetworkError? {
        error := completeReply.message;
        return;
      }
      step := CancelDone;
    }
  }
}

=== FILE: cancel_request.dfy ===
/**
 * What the cancel endpoints read from `await request.json().catch(() => null)` and how their
 * `.eq('id', body.cancellationId)` filter picks a row.
 */
module CancelRequest {
  import opened Optional
  import opened Json
  import opened CancelTypes

  /** `!body || !body.cancellationId` fails: the body and its id are both truthy. */
  predicate HasCancellationId(body: Json)
    ensures HasCancellationId(body) ==> body.JObj? && "cancellationId" in body.fields
  {
    Truthy(body) && TruthyOpt(Prop(body, "cancellationId"))
  }

  /**
   * The text supabase-js sends after `eq.`: the template `${value}`, that is `String(value)`.
   * An array is sent as its items joined with commas.
   */
  function FilterText(id: Json): string {
    ToJsString(id)
  }

  /**
   * A number, a boolean, `null` or an object prints as a text (`7`, `true`, `null`,
   * `[object Object]`) that is never a uuid, and the query fails whatever the rows.
   */
  predicate IdQueryFails(id: Json) {
    !(id.JStr? || id.JArr?)
  }

  /**
   * The row `.eq('id', id)` matches: the row whose id is the filter text of a string or an
   * array. Any other value makes the query fail and matches nothing.
   */
  function Target(c: map<Id, CancellationRow>, id: Json): (r: Option<Id>)
    ensures r.Some? <==> !IdQueryFails(id) && FilterText(id) in c
    ensures r.Some? ==> r.value == FilterText(id) && r.value in c
  {
    if !IdQueryFails(id) && FilterText(id) in c then Some(FilterText(id)) else None
  }

  /** A one-element array holding an id is sent as `eq.<id>` and picks the same row as the id itself. */
  lemma SingletonArrayTargetsSameRow(c: map<Id, CancellationRow>, s: string)
    ensures !IdQueryFails(JArr([JStr(s)]))
    ensures Target(c, JArr([JStr(s)])) == Target(c, JStr(s))
  {
    assert JoinItems([JStr(s)]) == s;
  }

  /** An array of two or more items is sent with a comma in it, so it picks no row whose id has none. */
  lemma LongArrayTargetsNoPlainId(c: map<Id, CancellationRow>, items: seq<Json>)
    requires |items| >= 2
    requires forall k :: k in c ==> ',' !in k
    ensures Target(c, JArr(items)).None?
  {
    JoinItemsHasComma(items);
  }
}

=== FILE: cancel_types.dfy ===
/**
 * The shapes of the two tables the flow reads and writes: `cancellations` (the columns of
 * `CancellationRow`, plus the `status`/`updated_at` columns and the draft endpoint's own
 * answer columns) and `subscriptions`. Column types follow the table's declared types, so a
 * nullable column is an `Option` and the one `jsonb` column holds any `Json` value.
 */
module CancelTypes {
  import opened Optional
  import opened Json

  /** Row identifiers (uuids), compared as opaque strings. */
  type Id = string

  /** An instant, as the database stores a timestamp; larger is later. */
  type Timestamp = int

  /** The A/B experiment arm: A has no upfront offer, B shows the discount first. */
  datatype Variant = A | B

  /** `randomInt(0, 2) === 0 ? 'A' : 'B'`, with the random draw as a parameter. */
  function VariantOfDraw(draw: nat): (v: Variant)
    requires draw < 2
    ensures v == A <==> draw == 0
  {
    if draw == 0 then A else B
  }

  /** An answer bucket chosen from four range labels. */
  type RangeIndex = n: int | 0 <= n < 4

  /** The five reason keys of the still-looking path. */
  datatype ReasonKey = TooExpensive | PlatformNotHelpful | NotEnoughRelevantJobs | DecidedNotToMove | Other {
    function Key(): string {
      match this
      case TooExpensive => "too_expensive"
      case PlatformNotHelpful => "platform_not_helpful"
      case NotEnoughRelevantJobs => "not_enough_relevant_jobs"
      case DecidedNotToMove => "decided_not_to_move"
      case Other => "other"
    }
  }

  /** The values the handlers write into `cancellations.status`. */
  datatype CancellationStatus = Draft | Committed

  datatype CancellationRow = CancellationRow(
    userId: string,
    subscriptionId: string,
    downsellVariant: Variant,
    status: Option<CancellationStatus>,
    reason: Option<string>,
    acceptedDownsell: Option<bool>,
    createdAt: Timestamp,
    updatedAt: Option<Timestamp>,
    jobFound: Option<bool>,
    foundJobWithMm: Option<bool>,
    rolesAppliedMm: Option<int>,
    companiesEmailed: Option<int>,
    companiesInterviewed: Option<int>,
    feedbackText: Option<string>,
    companyProvidesLawyer: Option<bool>,
    visaType: Option<string>,
    extraDetails: Json,
    // columns written only by the draft endpoint
    init: Option<bool>,
    foundJob: Option<bool>,
    foundViaMm: Option<bool>,
    foundJobFeedback: Option<string>,
    reasonCode: Option<string>,
    followUp: Option<string>
  )

  /** A freshly inserted row: every column the insert does not name is null. */
  function NewRow(userId: string, subscriptionId: string, variant: Variant, createdAt: Timestamp): (r: CancellationRow)
    ensures r.userId == userId && r.subscriptionId == subscriptionId
    ensures r.downsellVariant == variant && r.createdAt == createdAt
    ensures r.jobFound.None? && r.acceptedDownsell.None? && r.status.None? && r.extraDetails == JNull
    ensures r.reason.None? && r.updatedAt.None? && r.foundJobWithMm.None? && r.rolesAppliedMm.None?
    ensures r.companiesEmailed.None? && r.companiesInterviewed.None? && r.feedbackText.None?
    ensures r.companyProvidesLawyer.None? && r.visaType.None?
    ensures r.init.None? && r.foundJob.None? && r.foundViaMm.None? && r.foundJobFeedback.None?
    ensures r.reasonCode.None? && r.followUp.None?
  {
    CancellationRow(userId, subscriptionId, variant, None, None, None, createdAt, None,
                    None, None, None, None, None, None, None, None, JNull,
                    None, None, None, None, None, None)
  }

  datatype Subscription = Subscription(
    userId: string,
    status: string,
    monthlyPrice: Option<int>,
    updatedAt: Option<Timestamp>
  )

  const PendingCancellation: string := "pending_cancellation"
  const Active: string := "active"
}

=== FILE: commit_route.dfy ===
/**
 * POST /api/cancellation/commit: check the `csrf_token` double submit, require
 * `{ confirm: true }`, mark the single draft committed and, unless the discount was accepted,
 * move the subscription to `pending_cancellation`. The two writes are separate statements.
 */
module CommitRoute {
  import opened Optional
  import opened Json
  import opened CancelTypes
  import opened Http
  import opened Store
  import LibCsrf

  const User: string := "11111111-1111-1111-1111-111111111111"
  const Sub: string := "22222222-2222-2222-2222-222222222222"

  /**
   * `await req.json()` followed by `z.object({ confirm: z.literal(true) }).parse(body)`:
   * an empty or malformed body throws, and so does anything but an object whose `confirm` is `true`.
   */
  predicate Confirms(body: Body)
    ensures Confirms(body) <==> body.JsonBody? && Prop(body.value, "confirm") == Some(JBool(true))
  {
    body.JsonBody? && body.value.JObj? && "confirm" in body.value.fields
    && body.value.fields["confirm"] == JBool(true)
  }

  /** `{ status: 'committed', updated_at: now }` written over the draft. */
  function Committed(row: CancellationRow, now: Timestamp): (r: CancellationRow)
    ensures r.status == Some(CancellationStatus.Committed) && r.updatedAt == Some(now)
    ensures r.(status := row.status, updatedAt := row.updatedAt) == row
  {
    row.(status := Some(CancellationStatus.Committed), updatedAt := Some(now))
  }

  /** `!draft.accepted_downsell`: a discount not accepted, or never answered, cancels. */
  predicate Cancels(row: CancellationRow)
    ensures Cancels(row) <==> row.acceptedDownsell != Some(true)
  {
    row.acceptedDownsell.None? || !row.acceptedDownsell.value
  }

  predicate Admitted(req: Request) {
    LibCsrf.AssertCsrf(req).None? && Confirms(req.body)
  }

  /**
   * The handler. `readFails`, `commitFails` and `subscriptionFails` stand for an error from the
   * draft lookup, the draft update and the subscription update; `now` is the handler's clock.
   */
  method Post(db: Database, req: Request, now: Timestamp, readFails: bool, commitFails: bool,
              subscriptionFails: bool) returns (r: Response)
    modifies db
    ensures r.status in {200, 400, 403}
    ensures r.status == 403 <==> LibCsrf.AssertCsrf(req).Some?
    ensures LibCsrf.AssertCsrf(req).Some? ==> r.reply == ErrorReply(Some(LibCsrf.DefaultMessage)) && unchanged(db)
    ensures LibCsrf.AssertCsrf(req).None? && !Confirms(req.body) ==> r.status == 400 && unchanged(db)
    // `.single()`: no draft, or more than one, is an error
    ensures Admitted(req) && (readFails || |DraftIds(old(db.cancellations), User, Sub)| != 1) ==>
              r.status == 400 && unchanged(db)
    ensures forall id :: Admitted(req) && !readFails && DraftIds(old(db.cancellations), User, Sub) == {id} ==>
              var draft := old(db.cancellations)[id];
              if commitFails then r.status == 400 && unchanged(db)
              else
                db.cancellations == old(db.cancellations)[id := Committed(draft, now)]
                && (if !Cancels(draft) then
                      r == Response(200, CommittedReply(true)) && db.subscriptions == old(db.subscriptions)
                    else if subscriptionFails then
                      // the draft stays committed although the request failed
                      r.status == 400 && db.subscriptions == old(db.subscriptions)
                    else
                      r == Response(200, CommittedReply(false))
                      && db.subscriptions == SetPending(old(db.subscriptions), Sub, now))
  {
    var csrf := LibCsrf.AssertCsrf(req);
    if csrf.Some? {
      return Response(csrf.value.status, ErrorReply(Some(csrf.value.message)));
    }
    if !Confirms(req.body) {
      return Response(400, ErrorReply(None));
    }
    var drafts := DraftIds(db.cancellations, User, Sub);
    if readFails || |drafts| != 1 {
      return Response(400, ErrorReply(None));
    }
    var id :| id in drafts;
    OnlyElement(drafts, id);
    var draft := db.cancellations[id];
    if commitFails {
      return Response(400, ErrorReply(None));
    }
    db.cancellations := db.cancellations[id := Committed(draft, now)];
    if Cancels(draft) {
      if subscriptionFails {
        return Response(400, ErrorReply(None));
      }
      db.subscriptions := SetPending(db.subscriptions, Sub, now);
    }
    r := Response(200, CommittedReply(!Cancels(draft)));
  }

  /** Committing leaves no draft of that user and subscription behind. */
  lemma {:induction false} NoDraftAfterCommit(c: map<Id, CancellationRow>, id: Id, now: Timestamp)
    requires DraftIds(c, User, Sub) == {id}
    ensures DraftIds(c[id := Committed(c[id], now)], User, Sub) == {}
  {
    var c' := c[id := Committed(c[id], now)];
    forall other | other in c' && other != id ensures other !in DraftIds(c', User, Sub) {
      assert c'[other] == c[other];
      assert other !in DraftIds(c, User, Sub);
    }
  }

  /** A second commit finds no draft: it fails and changes nothing, the subscription included. */
  method CommitTwice(db: Database, req: Request, now1: Timestamp, now2: Timestamp) returns (r1: Response, r2: Response)
    modifies db
    ensures r1.status == 200 ==> r2.status == 400
    ensures r1.status == 200 ==> db.subscriptions == old(db.subscriptions)
                                 || db.subscriptions == SetPending(old(db.subscriptions), Sub, now1)
  {
    var drafts := DraftIds(db.cancellations, User, Sub);
    r1 := Post(db, req, now1, false, false, false);
    if r1.status == 200 {
      var id :| id in drafts;
      OnlyElement(drafts, id);
      NoDraftAfterCommit(old(db.cancellations), id, now1);
    }
    r2 := Post(db, req, now2, false, false, false);
  }
}

=== FILE: complete_route.dfy ===
/**
 * POST /api/cancel/complete: look up the cancellation's subscription and move it to
 * `pending_cancellation`, whatever the cancellation says about the discount.
 */
module CompleteRoute {
  import opened Optional
  import opened Json
  import opened CancelTypes
  import opened Http
  import opened Store
  import opened CancelRequest

  const InvalidPayload: string := "Invalid payload"
  const NotFound: string := "Not found"
  const SubscriptionUpdateFailed: string := "Subscription update failed"

  /**
   * The handler. The CSRF call is not awaited and never stops the request (see
   * `UtilsCsrf.UnawaitedCheckNeverBlocks`). `readFails` and `writeFails` stand for errors from
   * the lookup and from the subscription update; `now` is the handler's clock.
   */
  method Post(db: Database, req: Request, now: Timestamp, readFails: bool, writeFails: bool) returns (r: Response)
    modifies db
    ensures r.status in {200, 400, 404, 500}
    ensures db.cancellations == old(db.cancellations)
    ensures r.status != 200 ==> unchanged(db)
    ensures var body := JsonOrNull(req.body);
            !HasCancellationId(body) ==> r == Response(400, ErrorReply(Some(InvalidPayload)))
    // `.single()`: an id that matches no row is an error
    ensures var body := JsonOrNull(req.body);
            HasCancellationId(body) && (readFails || Target(old(db.cancellations), body.fields["cancellationId"]).None?) ==>
              r == Response(404, ErrorReply(Some(NotFound)))
    ensures var body := JsonOrNull(req.body);
            var target := if HasCancellationId(body) then Target(old(db.cancellations), body.fields["cancellationId"]) else None;
            !readFails && target.Some? ==>
              if writeFails then r == Response(500, ErrorReply(Some(SubscriptionUpdateFailed)))
              else
                && r == Response(200, OkReply)
                && db.subscriptions
                   == SetPending(old(db.subscriptions), old(db.cancellations)[target.value].subscriptionId, now)
  {
    var body := JsonOrNull(req.body);
    if !HasCancellationId(body) {
      return Response(400, ErrorReply(Some(InvalidPayload)));
    }
    var target := Target(db.cancellations, body.fields["cancellationId"]);
    if readFails || target.None? {
      return Response(404, ErrorReply(Some(NotFound)));
    }
    var subscriptionId := db.cancellations[target.value].subscriptionId;
    if writeFails {
      return Response(500, ErrorReply(Some(SubscriptionUpdateFailed)));
    }
    db.subscriptions := SetPending(db.subscriptions, subscriptionId, now);
    r := Response(200, OkReply);
  }
}

=== FILE: continue_route.dfy ===
/** POST /api/cancel/continue: record that the user took the discount. */
module ContinueRoute {
  import opened Optional
  import opened Json
  import opened CancelTypes
  import opened Http
  import opened Store
  import opened CancelRequest

  const InvalidPayload: string := "Invalid payload"
  const Failed: string := "Failed"

  /**
   * `.update({ accepted_downsell: true }).eq('id', id)`: an id that matches no row updates
   * nothing and is no error.
   */
  function AcceptDownsell(c: map<Id, CancellationRow>, id: Json): (c': map<Id, CancellationRow>)
    ensures c'.Keys == c.Keys
    ensures forall k :: k in c && Target(c, id) != Some(k) ==> c'[k] == c[k]
    ensures var t := Target(c, id); t.Some? ==> c'[t.value] == c[t.value].(acceptedDownsell := Some(true))
  {
    var t := Target(c, id);
    if t.Some? then c[t.value := c[t.value].(acceptedDownsell := Some(true))] else c
  }

  /**
   * The handler. The CSRF call is not awaited and never stops the request (see
   * `UtilsCsrf.UnawaitedCheckNeverBlocks`); `fails` stands for a store error.
   */
  method Post(db: Database, req: Request, fails: bool) returns (r: Response)
    modifies db
    ensures r.status in {200, 400, 500}
    ensures db.subscriptions == old(db.subscriptions)
    ensures r.status != 200 ==> unchanged(db)
    ensures var body := JsonOrNull(req.body);
            !HasCancellationId(body) ==> r == Response(400, ErrorReply(Some(InvalidPayload)))
    ensures var body := JsonOrNull(req.body);
            HasCancellationId(body) ==>
              if fails || IdQueryFails(body.fields["cancellationId"]) then r == Response(500, ErrorReply(Some(Failed)))
              else r == Response(200, OkReply)
                   && db.cancellations == AcceptDownsell(old(db.cancellations), body.fields["cancellationId"])
  {
    var body := JsonOrNull(req.body);
    if !HasCancellationId(body) {
      return Response(400, ErrorReply(Some(InvalidPayload)));
    }
    var id := body.fields["cancellationId"];
    if fails || IdQueryFails(id) {
      return Response(500, ErrorReply(Some(Failed)));
    }
    db.cancellations := AcceptDownsell(db.cancellations, id);
    r := Response(200, OkReply);
  }

  /** Taking the discount twice is the same as taking it once. */
  lemma AcceptDownsellIdempotent(c: map<Id, CancellationRow>, id: Json)
    ensures AcceptDownsell(AcceptDownsell(c, id), id) == AcceptDownsell(c, id)
  {
  }

  /** Only the `accepted_downsell` column of the one row changes; the status stays what it was. */
  lemma AcceptDownsellTouchesOneColumn(c: map<Id, CancellationRow>, id: Json, k: Id)
    requires k in c
    ensures AcceptDownsell(c, id)[k].(acceptedDownsell := c[k].acceptedDownsell) == c[k]
    ensures AcceptDownsell(c, id)[k].status == c[k].status
  {
  }
}

=== FILE: csrf_protocol.dfy ===
/**
 * How the token issuer, the modal and the two checks fit together. The issuer sets the
 * token as cookie `csrf` (src/app/api/csrf/route.ts:7) and the modal echoes it in header
 * `x-csrf`; the synchronous check looks for `csrf_token` / `x-csrf-token` instead.
 */
module CsrfProtocol {
  import opened Optional
  import opened Http
  import UtilsCsrf
  import LibCsrf

  const IssuedCookie: string := "csrf"
  const ModalHeader: string := "x-csrf"

  /** A request as the modal sends it after fetching `token` from the issuer. */
  function ModalRequest(token: string, body: Body): (req: Request)
    ensures Cookie(req, IssuedCookie) == Some(token) && Header(req, ModalHeader) == Some(token)
  {
    Request(map[IssuedCookie := token], map[ModalHeader := token], body)
  }

  /** Every such request fails the synchronous check, so the draft and commit endpoints answer 403. */
  lemma ModalRequestFailsLibCheck(token: string, body: Body)
    ensures LibCsrf.AssertCsrf(ModalRequest(token, body)).Some?
  {
    assert Cookie(ModalRequest(token, body), LibCsrf.CookieName).None?;
  }

  /** The asynchronous check accepts it exactly when the token is non-empty. */
  lemma ModalRequestPassesUtilsCheck(token: string, body: Body)
    ensures UtilsCsrf.AssertCsrf(ModalRequest(token, body)).None? <==> token != ""
  {
  }
}

=== FILE: draft_route.dfy ===
/**
 * POST /api/cancellation/draft: check the `csrf_token` double submit, validate the body against
 * the draft schema, then update the one draft of the fixed user and subscription or insert it.
 */
module DraftRoute {
  import opened Optional
  import opened JsText
  import opened Json
  import opened CancelTypes
  import opened Http
  import opened Store
  import LibCsrf

  const User: string := "11111111-1111-1111-1111-111111111111"
  const Sub: string := "22222222-2222-2222-2222-222222222222"

  /** The keys the schema knows; every other key of the body is stripped. */
  const SchemaKeys: set<string> :=
    {"init", "found_job", "found_via_mm", "found_job_feedback", "reason_code", "follow_up", "accepted_downsell"}

  const FeedbackMax: nat := 2000
  const ReasonCodeMax: nat := 120
  const FollowUpMax: nat := 1000

  /** One optional schema field after parsing: wrong type or too long, not sent, or its value. */
  datatype Field<T> = Invalid | Absent | Present(value: T)

  /** The parsed payload: `None` for a key the body did not send. */
  datatype DraftPayload = DraftPayload(
    init: Option<bool>,
    foundJob: Option<bool>,
    foundViaMm: Option<bool>,
    foundJobFeedback: Option<string>,
    reasonCode: Option<string>,
    followUp: Option<string>,
    acceptedDownsell: Option<bool>)

  /** The payload of an empty body, `{}`. */
  const EmptyPayload: DraftPayload := DraftPayload(None, None, None, None, None, None, None)

  /** `z.boolean().optional()`: `null` is not a boolean and is refused. */
  function BoolField(m: map<string, Json>, key: string): (f: Field<bool>)
    ensures f.Absent? <==> key !in m
    ensures f.Present? <==> key in m && m[key].JBool?
    ensures f.Present? ==> m[key] == JBool(f.value)
  {
    if key !in m then Absent
    else if m[key].JBool? then Present(m[key].b)
    else Invalid
  }

  /** `z.string().trim().max(max).optional()`: the length limit applies to the trimmed text. */
  function StringField(m: map<string, Json>, key: string, max: nat): (f: Field<string>)
    ensures f.Absent? <==> key !in m
    ensures f.Present? <==> key in m && m[key].JStr? && |Trim(m[key].s)| <= max
    ensures f.Present? ==> f.value == Trim(m[key].s)
  {
    if key !in m then Absent
    else if m[key].JStr? && |Trim(m[key].s)| <= max then Present(Trim(m[key].s))
    else Invalid
  }

  function ToOption<T>(f: Field<T>): Option<T>
    requires !f.Invalid?
  {
    if f.Present? then Some(f.value) else None
  }

  /** `Draft.parse(v)`: `None` when it throws. */
  function ParseDraft(v: Json): (p: Option<DraftPayload>)
    ensures !v.JObj? ==> p.None?
  {
    match v
    case JObj(m) =>
      var init := BoolField(m, "init");
      var foundJob := BoolField(m, "found_job");
      var foundViaMm := BoolField(m, "found_via_mm");
      var feedback := StringField(m, "found_job_feedback", FeedbackMax);
      var reasonCode := StringField(m, "reason_code", ReasonCodeMax);
      var followUp := StringField(m, "follow_up", FollowUpMax);
      var accepted := BoolField(m, "accepted_downsell");
      if init.Invalid? || foundJob.Invalid? || foundViaMm.Invalid? || feedback.Invalid?
         || reasonCode.Invalid? || followUp.Invalid? || accepted.Invalid?
      then None
      else Some(DraftPayload(ToOption(init), ToOption(foundJob), ToOption(foundViaMm), ToOption(feedback),
                             ToOption(reasonCode), ToOption(followUp), ToOption(accepted)))
    case _ => None
  }

  /** `bodyStr ? Draft.parse(JSON.parse(bodyStr)) : {}`: `None` when parsing throws. */
  function ReadPayload(body: Body): (p: Option<DraftPayload>)
    ensures body.EmptyBody? ==> p == Some(EmptyPayload)
    ensures body.Unparsable? ==> p.None?
  {
    match body
    case EmptyBody => Some(EmptyPayload)
    case Unparsable => None
    case JsonBody(v) => ParseDraft(v)
  }

  function Override<T>(sent: Option<T>, current: Option<T>): (r: Option<T>)
    ensures sent.Some? ==> r == sent
    ensures sent.None? ==> r == current
  {
    if sent.Some? then sent else current
  }

  /**
   * The columns `{ user_id, subscription_id, downsell_variant, status: 'draft', updated_at,
   * ...payload }` write over `row`; a key the payload does not carry keeps its value.
   */
  function WriteDraft(row: CancellationRow, variant: Variant, now: Timestamp, p: DraftPayload): CancellationRow {
    row.(userId := User, subscriptionId := Sub, downsellVariant := variant, status := Some(Draft),
         updatedAt := Some(now),
         init := Override(p.init, row.init),
         foundJob := Override(p.foundJob, row.foundJob),
         foundViaMm := Override(p.foundViaMm, row.foundViaMm),
         foundJobFeedback := Override(p.foundJobFeedback, row.foundJobFeedback),
         reasonCode := Override(p.reasonCode, row.reasonCode),
         followUp := Override(p.followUp, row.followUp),
         acceptedDownsell := Override(p.acceptedDownsell, row.acceptedDownsell))
  }

  /** The request passes the token check and its body parses. */
  predicate Admitted(req: Request) {
    LibCsrf.AssertCsrf(req).None? && ReadPayload(req.body).Some?
  }

  /**
   * The handler. `readFails` and `writeFails` stand for an error from the draft lookup and from
   * the update or insert; `freshId` is the id the database gives an inserted row (one already in
   * use is a unique violation), `dbNow` the `created_at` it stamps, `now` the handler's clock.
   */
  method Post(db: Database, req: Request, draw: nat, now: Timestamp, dbNow: Timestamp, freshId: Id,
              readFails: bool, writeFails: bool) returns (r: Response)
    requires draw < 2
    modifies db
    ensures r.status in {200, 400, 403}
    ensures r.status == 403 <==> LibCsrf.AssertCsrf(req).Some?
    ensures r.status == 200 ==> r.reply.RowReply?
    ensures r.status != 200 ==> unchanged(db)
    ensures db.subscriptions == old(db.subscriptions)
    ensures LibCsrf.AssertCsrf(req).Some? ==> r.reply == ErrorReply(Some(LibCsrf.DefaultMessage))
    ensures LibCsrf.AssertCsrf(req).None? && ReadPayload(req.body).None? ==> r.status == 400
    ensures Admitted(req) && (readFails || |DraftIds(old(db.cancellations), User, Sub)| > 1) ==> r.status == 400
    // an existing draft is rewritten in place and keeps its variant
    ensures forall id :: Admitted(req) && !readFails && DraftIds(old(db.cancellations), User, Sub) == {id} ==>
              if writeFails then r.status == 400
              else
                var row := WriteDraft(old(db.cancellations)[id], old(db.cancellations)[id].downsellVariant, now,
                                      ReadPayload(req.body).value);
                r == Response(200, RowReply(id, row)) && db.cancellations == old(db.cancellations)[id := row]
    // without a draft, a new one is inserted with the drawn variant
    ensures Admitted(req) && !readFails && DraftIds(old(db.cancellations), User, Sub) == {} ==>
              if writeFails || freshId in old(db.cancellations) then r.status == 400
              else
                var row := WriteDraft(NewRow(User, Sub, VariantOfDraw(draw), dbNow), VariantOfDraw(draw), now,
                                      ReadPayload(req.body).value);
                r == Response(200, RowReply(freshId, row)) && db.cancellations == old(db.cancellations)[freshId := row]
  {
    var csrf := LibCsrf.AssertCsrf(req);
    if csrf.Some? {
      return Response(csrf.value.status, ErrorReply(Some(csrf.value.message)));
    }
    var payload := ReadPayload(req.body);
    if payload.None? {
      return Response(400, ErrorReply(None));
    }
    var drafts := DraftIds(db.cancellations, User, Sub);
    if readFails || |drafts| > 1 {
      return Response(400, ErrorReply(None));
    }
    if |drafts| == 1 {
      var id :| id in drafts;
      OnlyElement(drafts, id);
      var existing := db.cancellations[id];
      if writeFails {
        return Response(400, ErrorReply(None));
      }
      var row := WriteDraft(existing, existing.downsellVariant, now, payload.value);
      db.cancellations := db.cancellations[id := row];
      r := Response(200, RowReply(id, row));
    } else {
      var variant := VariantOfDraw(draw);
      if writeFails || freshId in db.cancellations {
        return Response(400, ErrorReply(None));
      }
      var row := WriteDraft(NewRow(User, Sub, variant, dbNow), variant, now, payload.value);
      db.cancellations := db.cancellations[freshId := row];
      r := Response(200, RowReply(freshId, row));
    }
  }

  /** Keys outside the schema do not change what the body parses to. */
  lemma UnknownKeysIgnored(m: map<string, Json>, extra: map<string, Json>)
    requires forall k :: k in extra ==> k !in SchemaKeys
    ensures ParseDraft(JObj(m + extra)) == ParseDraft(JObj(m))
  {
    var m' := m + extra;
    assert forall k :: k in SchemaKeys ==> (k in m' <==> k in m) && (k in m ==> m'[k] == m[k]);
    assert BoolField(m', "init") == BoolField(m, "init");
    assert BoolField(m', "found_job") == BoolField(m, "found_job");
    assert BoolField(m', "found_via_mm") == BoolField(m, "found_via_mm");
    assert BoolField(m', "accepted_downsell") == BoolField(m, "accepted_downsell");
    assert StringField(m', "found_job_feedback", FeedbackMax) == StringField(m, "found_job_feedback", FeedbackMax);
    assert StringField(m', "reason_code", ReasonCodeMax) == StringField(m, "reason_code", ReasonCodeMax);
    assert StringField(m', "follow_up", FollowUpMax) == StringField(m, "follow_up", FollowUpMax);
  }

  /** A text the schema accepts is stored trimmed and within its limit. */
  predicate TrimmedWithin(x: Option<string>, max: nat) {
    x.Some? ==> Trim(x.value) == x.value && |x.value| <= max
  }

  lemma ParsedTextsTrimmedAndBounded(v: Json)
    requires ParseDraft(v).Some?
    ensures TrimmedWithin(ParseDraft(v).value.foundJobFeedback, FeedbackMax)
    ensures TrimmedWithin(ParseDraft(v).value.reasonCode, ReasonCodeMax)
    ensures TrimmedWithin(ParseDraft(v).value.followUp, FollowUpMax)
  {
    var m := v.fields;
    if "found_job_feedback" in m { TrimIdempotent(m["found_job_feedback"].s); }
    if "reason_code" in m { TrimIdempotent(m["reason_code"].s); }
    if "follow_up" in m { TrimIdempotent(m["follow_up"].s); }
  }

  /** The JSON object a payload is sent back as: one key per field it carries. */
  function PayloadJson(p: DraftPayload): (m: map<string, Json>)
    ensures m.Keys <= SchemaKeys
  {
    var m0 := PutBool(map[], "init", p.init);
    var m1 := PutBool(m0, "found_job", p.foundJob);
    var m2 := PutBool(m1, "found_via_mm", p.foundViaMm);
    var m3 := PutText(m2, "found_job_feedback", p.foundJobFeedback);
    var m4 := PutText(m3, "reason_code", p.reasonCode);
    var m5 := PutText(m4, "follow_up", p.followUp);
    PutBool(m5, "accepted_downsell", p.acceptedDownsell)
  }

  function PutBool(m: map<string, Json>, key: string, x: Option<bool>): map<string, Json> {
    if x.Some? then m[key := JBool(x.value)] else m
  }

  function PutText(m: map<string, Json>, key: string, x: Option<string>): map<string, Json> {
    if x.Some? then m[key := JStr(x.value)] else m
  }

  /** A payload whose texts are trimmed and within their limits is what its own JSON parses to. */
  lemma PayloadRoundTrip(p: DraftPayload)
    requires TrimmedWithin(p.foundJobFeedback, FeedbackMax)
    requires TrimmedWithin(p.reasonCode, ReasonCodeMax)
    requires TrimmedWithin(p.followUp, FollowUpMax)
    ensures ParseDraft(JObj(PayloadJson(p))) == Some(p)
  {
    var m := PayloadJson(p);
    PayloadJsonBools(p);
    PayloadJsonTexts(p);
    SentBoolParses(m, "init", p.init);
    SentBoolParses(m, "found_job", p.foundJob);
    SentBoolParses(m, "found_via_mm", p.foundViaMm);
    SentBoolParses(m, "accepted_downsell", p.acceptedDownsell);
    SentTextParses(m, "found_job_feedback", p.foundJobFeedback, FeedbackMax);
    SentTextParses(m, "reason_code", p.reasonCode, ReasonCodeMax);
    SentTextParses(m, "follow_up", p.followUp, FollowUpMax);
    ParseOfFields(m, p);
  }

  /** An object whose seven schema fields read as a payload's fields parses to that payload. */
  lemma ParseOfFields(m: map<string, Json>, p: DraftPayload)
    requires BoolField(m, "init") == FieldOf(p.init)
    requires BoolField(m, "found_job") == FieldOf(p.foundJob)
    requires BoolField(m, "found_via_mm") == FieldOf(p.foundViaMm)
    requires StringField(m, "found_job_feedback", FeedbackMax) == FieldOf(p.foundJobFeedback)
    requires StringField(m, "reason_code", ReasonCodeMax) == FieldOf(p.reasonCode)
    requires StringField(m, "follow_up", FollowUpMax) == FieldOf(p.followUp)
    requires BoolField(m, "accepted_downsell") == FieldOf(p.acceptedDownsell)
    ensures ParseDraft(JObj(m)) == Some(p)
  {
  }

  /** A trimmed text within its limit, sent under its key or not at all, parses back to itself. */
  lemma SentTextParses(m: map<string, Json>, key: string, x: Option<string>, max: nat)
    requires key in m <==> x.Some?
    requires key in m ==> m[key] == JStr(x.value)
    requires TrimmedWithin(x, max)
    ensures StringField(m, key, max) == FieldOf(x)
  {
  }

  lemma PayloadJsonBools(p: DraftPayload)
    ensures var m := PayloadJson(p);
            ("init" in m <==> p.init.Some?) && ("init" in m ==> m["init"] == JBool(p.init.value))
    ensures var m := PayloadJson(p);
            ("found_job" in m <==> p.foundJob.Some?) && ("found_job" in m ==> m["found_job"] == JBool(p.foundJob.value))
    ensures var m := PayloadJson(p);
            ("found_via_mm" in m <==> p.foundViaMm.Some?)
            && ("found_via_mm" in m ==> m["found_via_mm"] == JBool(p.foundViaMm.value))
    ensures var m := PayloadJson(p);
            ("accepted_downsell" in m <==> p.acceptedDownsell.Some?)
            && ("accepted_downsell" in m ==> m["accepted_downsell"] == JBool(p.acceptedDownsell.value))
  {
  }

  /** A boolean sent under its key or not at all parses back to itself. */
  lemma SentBoolParses(m: map<string, Json>, key: string, x: Option<bool>)
    requires key in m <==> x.Some?
    requires key in m ==> m[key] == JBool(x.value)
    ensures BoolField(m, key) == FieldOf(x)
  {
  }

  lemma PayloadJsonTexts(p: DraftPayload)
    ensures var m := PayloadJson(p);
            ("found_job_feedback" in m <==> p.foundJobFeedback.Some?)
            && ("found_job_feedback" in m ==> m["found_job_feedback"] == JStr(p.foundJobFeedback.value))
    ensures var m := PayloadJson(p);
            ("reason_code" in m <==> p.reasonCode.Some?)
            && ("reason_code" in m ==> m["reason_code"] == JStr(p.reasonCode.value))
    ensures var m := PayloadJson(p);
            ("follow_up" in m <==> p.followUp.Some?)
            && ("follow_up" in m ==> m["follow_up"] == JStr(p.followUp.value))
  {
  }

  function FieldOf<T>(x: Option<T>): Field<T> {
    if x.Some? then Present(x.value) else Absent
  }

  /** Parsing is a projection: what a body parses to, sent again, parses to the same payload. */
  lemma ParseOfParsed(v: Json)
    requires ParseDraft(v).Some?
    ensures ParseDraft(JObj(PayloadJson(ParseDraft(v).value))) == ParseDraft(v)
  {
    ParsedTextsTrimmedAndBounded(v);
    PayloadRoundTrip(ParseDraft(v).value);
  }

  /** A `null` for a schema key is refused rather than read as "not sent". */
  lemma NullFieldRefused(m: map<string, Json>, key: string)
    requires key in SchemaKeys && key in m && m[key] == JNull
    ensures ParseDraft(JObj(m)).None?
  {
  }

  /** Saving the same payload twice stores what saving it once stores, apart from `updated_at`. */
  lemma WriteDraftIdempotent(row: CancellationRow, variant: Variant, t1: Timestamp, t2: Timestamp, p: DraftPayload)
    ensures WriteDraft(WriteDraft(row, variant, t1, p), variant, t2, p) == WriteDraft(row, variant, t2, p)
  {
  }

  /** A saved draft belongs to the fixed user and subscription and stays a draft. */
  lemma WrittenRowIsDraft(row: CancellationRow, variant: Variant, now: Timestamp, p: DraftPayload)
    ensures var w := WriteDraft(row, variant, now, p);
            w.userId == User && w.subscriptionId == Sub && w.status == Some(Draft) && w.downsellVariant == variant
            && w.createdAt == row.createdAt && w.extraDetails == row.extraDetails
  {
  }

  /** After any successful save there is exactly one draft, so the next save updates it. */
  method SaveTwice(db: Database, req1: Request, req2: Request, draw1: nat, draw2: nat, now1: Timestamp,
                   now2: Timestamp, dbNow: Timestamp, freshId1: Id, freshId2: Id)
      returns (r1: Response, r2: Response)
    requires draw1 < 2 && draw2 < 2
    requires DraftIds(db.cancellations, User, Sub) == {}
    modifies db
    ensures r1.status == 200 && r2.status == 200 ==>
              r1.reply.RowReply? && r2.reply.RowReply? && r1.reply.id == r2.reply.id
              && r1.reply.row.downsellVariant == r2.reply.row.downsellVariant
  {
    r1 := Post(db, req1, draw1, now1, dbNow, freshId1, false, false);
    if r1.status == 200 {
      assert DraftIds(db.cancellations, User, Sub) == {freshId1};
    }
    r2 := Post(db, req2, draw2, now2, dbNow, freshId2, false, false);
  }
}

=== FILE: flow_consistency.dfy ===
/**
 * How the modal and the update route fit together: every patch the modal sends passes the
 * route's allowlist unchanged and is written as sent, and the screen a resume picks for the row
 * it leaves is the screen the modal moved to (with the exceptions the source has).
 */
module FlowConsistency {
  import opened Optional
  import opened JsText
  import opened Json
  import opened CancelTypes
  import opened Http
  import opened CsrfProtocol
  import opened CancelRequest
  import opened Store
  import opened UpdateRoute
  import opened Gates
  import opened Resume
  import opened CancelModal

  /** The body `patch(partial)` sends: `{ cancellationId, patch: partial }`. */
  function UpdateBody(id: Id, partial: map<string, Json>): (body: Json)
    ensures id != "" ==> ValidPayload(body) && body.fields["patch"] == JObj(partial)
  {
    JObj(map["cancellationId" := JStr(id), "patch" := JObj(partial)])
  }

  /** The body the complete and continue requests send: `{ cancellationId }`, `null` before start-up. */
  function IdBody(id: Option<Id>): (body: Json)
    ensures id.Some? && id.value != "" ==> HasCancellationId(body) && body.fields["cancellationId"] == JStr(id.value)
    ensures id.None? ==> !HasCancellationId(body)
  {
    JObj(map["cancellationId" := if id.Some? then JStr(id.value) else JNull])
  }

  /** A recorded call as it reaches its route, with the issued cookie beside the header. */
  function CallRequest(call: ApiCall): (req: Request)
    ensures call.UpdateCall? ==> JsonOrNull(req.body) == UpdateBody(call.id, call.patch)
    ensures !call.UpdateCall? ==> JsonOrNull(req.body) == IdBody(call.cancellationId)
  {
    match call
    case UpdateCall(csrf, id, patch) => ModalRequest(csrf, JsonBody(UpdateBody(id, patch)))
    case CompleteCall(csrf, id) => ModalRequest(csrf, JsonBody(IdBody(id)))
    case ContinueCall(csrf, id) => ModalRequest(csrf, JsonBody(IdBody(id)))
  }

  /** A patch whose keys all come from the allowlist leaves the filter as it went in. */
  lemma AllowlistedPatchPassesFilter(p: map<string, Json>)
    requires forall k :: k in p ==> k in Allow
    ensures SafePatch(p) == p
  {
    assert "__proto__" !in Allow;
    assert forall k :: k in p ==> AllowTruthy(k);
  }

  /** The "Not yet" and discount patches name allowlisted columns with values of their types. */
  lemma FlagPatchesWritable()
    ensures Writable(EntryPatch) && Writable(DiscountPatch)
  {
    assert "job_found" in BoolColumns && "accepted_downsell" in BoolColumns;
  }

  lemma JobDetailsPatchWritable(f: bool, a: int, e: int, i: int)
    ensures Writable(JobDetailsPatch(f, a, e, i))
  {
    var p := JobDetailsPatch(f, a, e, i);
    forall k | k in p ensures k in Allow && FitsColumn(k, p[k]) {
      assert k in BoolColumns || k in IntColumns;
    }
  }

  lemma FoundTextPatchesWritable(feedback: string, lawyer: bool, visa: string)
    ensures Writable(FeedbackPatch(feedback)) && Writable(VisaPatch(lawyer, visa))
  {
    assert "feedback_text" in TextColumns && "visa_type" in TextColumns;
    assert "company_provides_lawyer" in BoolColumns;
  }

  lemma ReasonPatchWritable(k: ReasonKey, text: string, amount: string)
    requires WillingValid(Some(k), amount)
    ensures Writable(ReasonPatch(k, text, amount))
  {
    assert "reason" in TextColumns;
  }

  lemma UsagePatchWritable(reason: Option<ReasonKey>, a: int, e: int, i: int)
    ensures Writable(UsagePatch(reason, a, e, i))
  {
  }

  /** No patch the modal builds is empty, so none of them meets the empty update's 500. */
  lemma ModalPatchesNonEmpty(f: bool, a: int, e: int, i: int, feedback: string, hasLawyer: bool, visaType: string,
                             k: ReasonKey, reasonText: string, willingToPay: string, reason: Option<ReasonKey>)
    ensures EntryPatch != map[] && DiscountPatch != map[]
    ensures JobDetailsPatch(f, a, e, i) != map[] && FeedbackPatch(feedback) != map[] && VisaPatch(hasLawyer, visaType) != map[]
    ensures WillingValid(Some(k), willingToPay) ==> ReasonPatch(k, reasonText, willingToPay) != map[]
    ensures UsagePatch(reason, a, e, i) != map[]
  {
    assert "job_found" in EntryPatch && "accepted_downsell" in DiscountPatch;
    assert "job_found" in JobDetailsPatch(f, a, e, i) && "feedback_text" in FeedbackPatch(feedback);
    assert "visa_type" in VisaPatch(hasLawyer, visaType) && "extra_details" in UsagePatch(reason, a, e, i);
    if WillingValid(Some(k), willingToPay) {
      assert "reason" in ReasonPatch(k, reasonText, willingToPay);
    }
  }

  /**
   * Delivering an update the modal recorded: the route answers 200 exactly when the row exists,
   * the patch is not empty and the store does not fail, and then the row holds the patch as sent.
   */
  method DeliverUpdate(db: Database, call: ApiCall, fails: bool) returns (r: Response)
    requires call.UpdateCall? && call.id != "" && Writable(call.patch)
    modifies db
    ensures r.status == 200 <==> !fails && call.id in old(db.cancellations) && call.patch != map[]
    ensures r.status == 200 ==>
              db.cancellations == old(db.cancellations)[call.id := PatchRow(old(db.cancellations)[call.id], call.patch).value]
              && db.subscriptions == old(db.subscriptions)
    ensures r.status != 200 ==> r == Response(500, ErrorReply(Some(UpdateFailed))) && unchanged(db)
  {
    AllowlistedPatchPassesFilter(call.patch);
    assert OwnEntries(JObj(call.patch)) == call.patch;
    r := Patch(db, CallRequest(call), fails);
  }

  // ---- the screen a resume picks after each persisted patch ----

  /** After "Not yet" on a fresh row, a resume shows the offer for B and the reasons for A. */
  lemma EntryPatchResume(row: CancellationRow, v: Variant)
    requires row.acceptedDownsell != Some(true) && Blank(row.reason)
    ensures PatchRow(row, EntryPatch).Some?
    ensures InferStep(PatchRow(row, EntryPatch).value, v) == if v == B then DownsellOffer else Reason
  {
    PatchRowWrites(row, EntryPatch);
  }

  /**
   * After screen 1 the modal shows screen 2, but a resume agrees only when the job was found
   * with MigrateMate: a stored `false` sends the user back to screen 1.
   */
  lemma JobDetailsPatchResume(row: CancellationRow, f: bool, a: int, e: int, i: int, v: Variant)
    requires Blank(row.feedbackText)
    ensures PatchRow(row, JobDetailsPatch(f, a, e, i)).Some?
    ensures InferStep(PatchRow(row, JobDetailsPatch(f, a, e, i)).value, v) == if f then Feedback else JobDetails
  {
  }

  /** The feedback patch writes the feedback column and nothing else. */
  lemma FeedbackPatchRow(row: CancellationRow, feedback: string)
    ensures PatchRow(row, FeedbackPatch(feedback)) == Some(row.(feedbackText := Some(feedback)))
  {
    FoundTextPatchesWritable(feedback, false, "");
  }

  /** The visa patch writes the lawyer and visa columns and nothing else. */
  lemma VisaPatchRow(row: CancellationRow, lawyer: bool, visa: string)
    ensures PatchRow(row, VisaPatch(lawyer, visa))
            == Some(row.(companyProvidesLawyer := Some(lawyer), visaType := Some(visa)))
  {
    FoundTextPatchesWritable("", lawyer, visa);
  }

  /** After screen 2 (found with MigrateMate), a resume shows screen 3 until the lawyer question is stored. */
  lemma FeedbackPatchResume(row: CancellationRow, feedback: string, v: Variant)
    requires row.jobFound == Some(true) && row.foundJobWithMm == Some(true) && row.rolesAppliedMm.Some?
    requires row.companyProvidesLawyer.None? && CanContinue2(feedback)
    ensures PatchRow(row, FeedbackPatch(feedback)).Some?
    ensures InferStep(PatchRow(row, FeedbackPatch(feedback)).value, v) == Visa
  {
    FeedbackPatchRow(row, feedback);
    NotBlankOnceTrimmed(feedback);
    ResumesAtVisa(row.(feedbackText := Some(feedback)), v);
  }

  lemma ResumesAtVisa(row: CancellationRow, v: Variant)
    requires row.jobFound == Some(true) && row.foundJobWithMm == Some(true) && row.rolesAppliedMm.Some?
    requires !Blank(row.feedbackText) && row.companyProvidesLawyer.None?
    ensures InferStep(row, v) == Visa
  {
  }

  /** After screen 3, a resume shows the found-a-job done screen. */
  lemma VisaPatchResume(row: CancellationRow, lawyer: bool, visa: string, v: Variant)
    requires row.jobFound == Some(true) && row.foundJobWithMm == Some(true) && row.rolesAppliedMm.Some?
    requires !Blank(row.feedbackText) && CanCompleteFound(Some(lawyer), visa)
    ensures PatchRow(row, VisaPatch(lawyer, visa)).Some?
    ensures InferStep(PatchRow(row, VisaPatch(lawyer, visa)).value, v) == FoundDone
  {
    VisaPatchRow(row, lawyer, visa);
    NotBlankOnceTrimmed(visa);
    ResumesFoundDone(row.(companyProvidesLawyer := Some(lawyer), visaType := Some(visa)), v);
  }

  lemma ResumesFoundDone(row: CancellationRow, v: Variant)
    requires row.jobFound == Some(true) && row.foundJobWithMm == Some(true) && row.rolesAppliedMm.Some?
    requires !Blank(row.feedbackText) && row.companyProvidesLawyer.Some? && !Blank(row.visaType)
    ensures InferStep(row, v) == FoundDone
  {
  }

  /** A text with something left after trimming is stored as a non-blank column. */
  lemma NotBlankOnceTrimmed(s: string)
    requires |Trim(s)| > 0
    ensures !Blank(Some(s))
  {
    assert |Trim(s)| <= |TrimStart(s)| <= |s|;
  }

  /** After the discount is stored, a resume shows screen 16 whatever else the row holds. */
  lemma DiscountPatchResume(row: CancellationRow, v: Variant)
    requires row.jobFound == Some(false)
    ensures PatchRow(row, DiscountPatch).Some?
    ensures InferStep(PatchRow(row, DiscountPatch).value, v) == DiscountDone
  {
    PatchRowWrites(row, DiscountPatch);
  }

  /** The amount field a resume fills in after the reason patch stored `cents`. */
  function ResumedAmount(k: ReasonKey, amount: string, current: string): string
    requires WillingValid(Some(k), amount)
  {
    if k == TooExpensive && AmountToCents(amount) != 0 then DollarString(AmountToCents(amount)) else current
  }

  /** The reason patch writes the reason column and the details, and nothing else. */
  lemma ReasonPatchRow(row: CancellationRow, k: ReasonKey, text: string, amount: string)
    requires WillingValid(Some(k), amount)
    ensures PatchRow(row, ReasonPatch(k, text, amount))
            == Some(row.(reason := Some(Label(k)), extraDetails := ReasonDetails(k, text, amount)))
  {
    ReasonPatchWritable(k, text, amount);
  }

  /** The usage patch writes the details and nothing else. */
  lemma UsagePatchRow(row: CancellationRow, reason: Option<ReasonKey>, a: int, e: int, i: int)
    ensures PatchRow(row, UsagePatch(reason, a, e, i)) == Some(row.(extraDetails := UsageDetails(reason, a, e, i)))
  {
    UsagePatchWritable(reason, a, e, i);
  }

  /** The reason details read back as the reason, its explanation and its amount, with no usage answers. */
  lemma ReasonDetailsReadBack(row: CancellationRow, k: ReasonKey, text: string, amount: string, current: LookingAnswers)
    requires WillingValid(Some(k), amount)
    requires row.extraDetails == ReasonDetails(k, text, amount)
    ensures UsageMissing(Details(row))
    ensures LookingAnswersOf(row, current)
            == LookingAnswers(Some(k), if NeedsText25(Some(k)) then text else "",
                              ResumedAmount(k, amount, current.willingToPay), None, None, None)
  {
    MapReasonBackOfKey(row, k);
    var ed := Details(row);
    assert ed == row.extraDetails;
    ReasonDetailsProps(k, text, amount);
    if k == TooExpensive {
      assert FreeText(ed) == "";
      assert ResumedWillingToPay(ed, current.willingToPay) == ResumedAmount(k, amount, current.willingToPay);
    } else {
      assert FreeText(ed) == text;
      assert ResumedWillingToPay(ed, current.willingToPay) == current.willingToPay;
    }
  }

  /** The properties of the reason details object that a resume reads. */
  lemma ReasonDetailsProps(k: ReasonKey, text: string, amount: string)
    requires WillingValid(Some(k), amount)
    ensures var ed := ReasonDetails(k, text, amount);
            && Prop(ed, "usage_applied").None? && Prop(ed, "usage_emailed").None?
            && Prop(ed, "usage_interviews").None?
            && Prop(ed, "free_text") == Some(if NeedsText25(Some(k)) then JStr(text) else JNull)
            && Prop(ed, "willing_to_pay_cents")
               == Some(if k == TooExpensive then JNum(AmountToCents(amount)) else JNull)
  {
  }

  /** The usage details read back as the reason and the three answers; explanation and amount are gone. */
  lemma UsageDetailsReadBack(row: CancellationRow, reason: Option<ReasonKey>, a: int, e: int, i: int, current: LookingAnswers)
    requires row.extraDetails == UsageDetails(reason, a, e, i)
    ensures !UsageMissing(Details(row))
    ensures LookingAnswersOf(row, current) == LookingAnswers(reason, "", current.willingToPay, Some(a), Some(e), Some(i))
  {
    if reason.Some? {
      MapReasonBackOfKey(row, reason.value);
    } else {
      MapReasonBackOfOther(row);
    }
  }

  /**
   * After screen 11, a resume shows screen 12 and restores the chosen reason, the explanation
   * for a text reason, and the amount in its dollar form when it is not zero.
   */
  lemma ReasonPatchResume(row: CancellationRow, k: ReasonKey, text: string, amount: string,
                          current: LookingAnswers, v: Variant)
    requires row.jobFound == Some(false) && row.acceptedDownsell != Some(true)
    requires CanContinueReason(Some(k), text, amount)
    ensures PatchRow(row, ReasonPatch(k, text, amount)).Some?
    ensures var row' := PatchRow(row, ReasonPatch(k, text, amount)).value;
            && InferStep(row', v) == Usage
            && LookingAnswersOf(row', current)
               == LookingAnswers(Some(k), if NeedsText25(Some(k)) then text else "",
                                 ResumedAmount(k, amount, current.willingToPay), None, None, None)
  {
    ReasonPatchRow(row, k, text, amount);
    var row' := row.(reason := Some(Label(k)), extraDetails := ReasonDetails(k, text, amount));
    ReasonDetailsReadBack(row', k, text, amount, current);
    ResumesAtUsage(row', v);
  }

  lemma ResumesAtUsage(row: CancellationRow, v: Variant)
    requires row.jobFound == Some(false) && row.acceptedDownsell != Some(true)
    requires !Blank(row.reason) && UsageMissing(Details(row))
    ensures InferStep(row, v) == Usage
  {
  }

  /**
   * After screen 12, a resume shows the confirm screen. The usage patch replaced the whole of
   * `extra_details`, so the explanation and the amount are gone from the row.
   */
  lemma UsagePatchResume(row: CancellationRow, reason: Option<ReasonKey>, a: int, e: int, i: int,
                         current: LookingAnswers, v: Variant)
    requires row.jobFound == Some(false) && row.acceptedDownsell != Some(true) && !Blank(row.reason)
    ensures PatchRow(row, UsagePatch(reason, a, e, i)).Some?
    ensures var row' := PatchRow(row, UsagePatch(reason, a, e, i)).value;
            && InferStep(row', v) == Confirm
            && LookingAnswersOf(row', current)
               == LookingAnswers(reason, "", current.willingToPay, Some(a), Some(e), Some(i))
  {
    UsagePatchRow(row, reason, a, e, i);
    var row' := row.(extraDetails := UsageDetails(reason, a, e, i));
    UsageDetailsReadBack(row', reason, a, e, i, current);
  }

  /**
   * A resumed amount passes the amount check again and converts to the cents that were stored,
   * so sending the reason screen again writes the same patch.
   */
  lemma ResumedAmountResubmits(amount: string, text: string, text': string)
    requires IsAmount(amount) && AmountToCents(amount) != 0
    ensures var shown := DollarString(AmountToCents(amount));
            && IsAmount(shown) && AmountToCents(shown) == AmountToCents(amount)
            && ReasonPatch(TooExpensive, text', shown) == ReasonPatch(TooExpensive, text, amount)
  {
    DollarStringRoundTrip(AmountToCents(amount));
  }

  /** A stored amount of zero is not restored: the field stays as it was and must be typed again. */
  lemma ZeroAmountNotRestored(amount: string, current: string)
    requires IsAmount(amount) && AmountToCents(amount) == 0
    ensures ResumedAmount(TooExpensive, amount, current) == current
  {
  }
}

=== FILE: gates.dfy ===
/**
 * The conditions that enable the modal's Continue buttons, the discounted price, and the
 * amount text of the "willing to pay" field with its conversion to and from cents.
 */
module Gates {
  import opened Optional
  import opened JsText
  import opened CancelTypes

  /** Step 1: the MigrateMate question and the three counters are all answered. */
  predicate CanContinue1(foundWithMM: Option<bool>, applied: Option<int>, emailed: Option<int>, interviews: Option<int>) {
    foundWithMM.Some? && applied.Some? && emailed.Some? && interviews.Some?
  }

  const MinFeedback: nat := 25

  /** Step 2: at least 25 characters of feedback once trimmed. */
  predicate CanContinue2(feedback: string) {
    |Trim(feedback)| >= MinFeedback
  }

  /** Step 3: the lawyer question is answered and the visa is not blank. */
  predicate CanCompleteFound(hasLawyer: Option<bool>, visaType: string) {
    hasLawyer.Some? && |Trim(visaType)| > 0
  }

  /** The reasons that ask for a written explanation. */
  predicate NeedsText25(r: Option<ReasonKey>) {
    r == Some(PlatformNotHelpful) || r == Some(DecidedNotToMove) || r == Some(Other) || r == Some(NotEnoughRelevantJobs)
  }

  predicate ReasonTextValid(r: Option<ReasonKey>, reasonText: string) {
    !NeedsText25(r) || |Trim(reasonText)| >= MinFeedback
  }

  predicate WillingValid(r: Option<ReasonKey>, willingToPay: string) {
    r != Some(TooExpensive) || IsAmount(willingToPay)
  }

  /** The reason screen: a reason, and the detail that reason asks for. */
  predicate CanContinueReason(r: Option<ReasonKey>, reasonText: string, willingToPay: string) {
    r.Some? && ReasonTextValid(r, reasonText) && WillingValid(r, willingToPay)
  }

  /** The usage screen: all three counters answered. */
  predicate CanContinueUsage(applied: Option<int>, emailed: Option<int>, interviews: Option<int>) {
    applied.Some? && emailed.Some? && interviews.Some?
  }

  /** Every reason except `too_expensive` asks for an explanation, and `too_expensive` asks for an amount. */
  lemma EveryReasonAsksOneDetail(k: ReasonKey)
    ensures NeedsText25(Some(k)) <==> k != TooExpensive
    ensures CanContinueReason(Some(k), "", "") <==> false
  {
    assert Trim("") == [];
    assert !IsAmount("");
  }

  /** `canContinueReason` in terms of the amount's syntax. */
  lemma CanContinueReasonIff(r: Option<ReasonKey>, reasonText: string, willingToPay: string)
    ensures CanContinueReason(r, reasonText, willingToPay) <==>
              && r.Some?
              && (r.value == TooExpensive ==> AmountShape(willingToPay))
              && (r.value != TooExpensive ==> |Trim(reasonText)| >= MinFeedback)
  {
    IsAmountMatchesShape(willingToPay);
  }

  // ---- the amount field ----

  /** The length of the run of decimal digits that starts `s`. */
  function LeadingDigits(s: string): (n: nat)
    ensures n <= |s| && AllDigits(s[..n])
    ensures n < |s| ==> !IsDigit(s[n])
  {
    if s == [] || !IsDigit(s[0]) then 0
    else
      var m := LeadingDigits(s[1..]);
      assert s[..1 + m] == [s[0]] + s[1..][..m];
      1 + m
  }

  /** A scanner for `/^\d+(?:\.\d{1,2})?$/.test(s)`. */
  predicate IsAmount(s: string) {
    var n := LeadingDigits(s);
    n >= 1 && (n == |s| || (s[n] == '.' && (|s| - n == 2 || |s| - n == 3) && AllDigits(s[n + 1..])))
  }

  /** What the regular expression describes: digits, or digits, a point and one or two digits. */
  predicate AmountShape(s: string) {
    || (|s| >= 1 && AllDigits(s))
    || exists i :: 1 <= i < |s| && s[i] == '.' && AllDigits(s[..i]) && 2 <= |s| - i <= 3 && AllDigits(s[i + 1..])
  }

  lemma AllDigitsLeading(s: string)
    requires AllDigits(s)
    ensures LeadingDigits(s) == |s|
  {
  }

  /** A digit run ending at a point is the leading run. */
  lemma LeadingRunEndsAtPoint(s: string, i: nat)
    requires i < |s| && s[i] == '.' && AllDigits(s[..i])
    ensures LeadingDigits(s) == i
  {
  }

  lemma IsAmountMatchesShape(s: string)
    ensures IsAmount(s) <==> AmountShape(s)
  {
    var n := LeadingDigits(s);
    if IsAmount(s) {
      if n == |s| {
        assert s[..n] == s;
      } else {
        assert 1 <= n < |s| && s[n] == '.' && AllDigits(s[..n]);
      }
    }
    if AmountShape(s) {
      if |s| >= 1 && AllDigits(s) {
        AllDigitsLeading(s);
      } else {
        var i :| 1 <= i < |s| && s[i] == '.' && AllDigits(s[..i]) && 2 <= |s| - i <= 3 && AllDigits(s[i + 1..]);
        LeadingRunEndsAtPoint(s, i);
      }
    }
  }

  /** `Math.round(parseFloat(s) * 100)` for an amount, computed exactly. */
  function AmountToCents(s: string): (cents: nat)
    requires IsAmount(s)
  {
    var n := LeadingDigits(s);
    var whole := DigitsValue(s[..n]);
    if n == |s| then 100 * whole
    else if |s| - n == 2 then 100 * whole + 10 * DigitValue(s[n + 1])
    else
      assert IsDigit(s[n + 1..][0]) && IsDigit(s[n + 1..][1]);
      100 * whole + 10 * DigitValue(s[n + 1]) + DigitValue(s[n + 2])
  }

  /** `String(cents / 100)`: the shortest decimal text of the amount in dollars. */
  function DollarString(cents: int): (s: string)
    ensures cents >= 0 ==> |s| >= 1 && IsDigit(s[0])
  {
    var a := if cents < 0 then -cents else cents;
    (if cents < 0 then "-" else "") + DecimalString(a / 100) + CentsSuffix(a % 100)
  }

  /** `""`, `".d"` or `".dd"`: the fraction without trailing zeros. */
  function CentsSuffix(c: nat): (s: string)
    requires c < 100
    ensures s == [] || (s[0] == '.' && (|s| == 2 || |s| == 3) && AllDigits(s[1..]))
  {
    if c == 0 then ""
    else if c % 10 == 0 then ['.', DigitChar(c / 10)]
    else ['.', DigitChar(c / 10), DigitChar(c % 10)]
  }

  lemma LeadingDigitsOfConcat(d: string, rest: string)
    requires AllDigits(d) && (rest == [] || !IsDigit(rest[0]))
    ensures LeadingDigits(d + rest) == |d|
    ensures (d + rest)[..|d|] == d
  {
    var s := d + rest;
    assert s[..|d|] == d;
    if rest == [] {
      AllDigitsLeading(s);
    }
  }

  /** The text the modal shows for a stored price is an amount that converts back to that price. */
  lemma {:induction false} DollarStringRoundTrip(cents: nat)
    ensures IsAmount(DollarString(cents))
    ensures AmountToCents(DollarString(cents)) == cents
  {
    var whole := DecimalString(cents / 100);
    var suffix := CentsSuffix(cents % 100);
    var s := DollarString(cents);
    assert s == whole + suffix;
    LeadingDigitsOfConcat(whole, suffix);
    DecimalStringValue(cents / 100);
    if suffix != [] {
      assert s[|whole|] == '.';
      assert s[|whole| + 1..] == suffix[1..];
      assert s[|whole| + 1] == suffix[1];
      if |suffix| == 3 {
        assert s[|whole| + 2] == suffix[2];
      }
    }
  }

  // ---- the discount ----

  const DiscountCents: int := 1000

  /** `planCents == null ? null : Math.max(0, planCents - 1000)` */
  function Discounted(planCents: Option<int>): (r: Option<int>)
    ensures r.None? <==> planCents.None?
    ensures r.Some? ==> r.value >= 0 && r.value >= planCents.value - DiscountCents
    ensures r.Some? ==> r.value == 0 || r.value == planCents.value - DiscountCents
  {
    if planCents.None? then None
    else Some(if planCents.value - DiscountCents > 0 then planCents.value - DiscountCents else 0)
  }

  /** The discount takes $10 off a plan of at least $10 and makes a cheaper plan free. */
  lemma DiscountedPrice(p: int)
    ensures p >= DiscountCents ==> Discounted(Some(p)) == Some(p - DiscountCents)
    ensures p < DiscountCents ==> Discounted(Some(p)) == Some(0)
    ensures p >= 0 ==> 0 <= Discounted(Some(p)).value <= p
  {
  }

  /** A dearer plan is never discounted to less. */
  lemma DiscountedMonotone(p: int, q: int)
    requires p <= q
    ensures Discounted(Some(p)).value <= Discounted(Some(q)).value
  {
  }
}

=== FILE: http.dfy ===
/** Requests reaching the route handlers and the responses they return. */
module Http {
  import opened Optional
  import opened Json
  import opened CancelTypes

  /** A request body as text: empty, not JSON, or a parsed JSON value. */
  datatype Body = EmptyBody | Unparsable | JsonBody(value: Json)

  /** Cookies by name and headers by lower-case name. */
  datatype Request = Request(cookies: map<string, string>, headers: map<string, string>, body: Body)

  /** `req.cookies.get(name)?.value`: `None` when the cookie is not sent. */
  function Cookie(req: Request, name: string): Option<string> {
    if name in req.cookies then Some(req.cookies[name]) else None
  }

  /** `req.headers.get(name)`: `None` (null) when the header is not sent. */
  function Header(req: Request, name: string): Option<string> {
    if name in req.headers then Some(req.headers[name]) else None
  }

  /** `await request.json().catch(() => null)`: an empty or malformed body reads as `null`. */
  function JsonOrNull(body: Body): (v: Json)
    ensures body.JsonBody? ==> v == body.value
    ensures !body.JsonBody? ==> !Truthy(v)
  {
    if body.JsonBody? then body.value else JNull
  }

  /** The JSON a handler answers with. */
  datatype Reply =
    | ErrorReply(error: Option<string>)            // { error }, the message when it is a fixed text
    | RowReply(id: Id, row: CancellationRow)         // the stored row itself
    | UpdatedReply(id: Id, row: CancellationRow)     // { cancellation }
    | StartedReply(id: Id, row: CancellationRow, subscriptionId: Id, subscription: Subscription)
    | OkReply                                        // { ok: true }
    | CommittedReply(acceptedDownsell: bool)         // { ok: true, accepted_downsell }

  datatype Response = Response(status: int, reply: Reply)
}

=== FILE: js_text.dfy ===
/**
 * The pieces of JavaScript's string semantics the cancellation flow relies on:
 * `String.prototype.trim` and the decimal rendering of integers.
 */
module JsText {

  /** The WhiteSpace and LineTerminator code points of ECMAScript; `trim` removes exactly these. */
  predicate IsJsWhitespace(c: char) {
    || ('\t' <= c <= '\r') || c == ' ' || c == '\U{A0}' || c == '\U{1680}'
    || ('\U{2000}' <= c <= '\U{200A}') || c == '\U{2028}' || c == '\U{2029}' || c == '\U{202F}'
    || c == '\U{205F}' || c == '\U{3000}' || c == '\U{FEFF}'
  }

  /** Every character of `s` from index `lo` up to `hi` is whitespace. */
  predicate WhitespaceIn(s: string, lo: int, hi: int)
    requires 0 <= lo <= hi <= |s|
  {
    forall k :: lo <= k < hi ==> IsJsWhitespace(s[k])
  }

  predicate AllWhitespace(s: string) {
    WhitespaceIn(s, 0, |s|)
  }

  function TrimStart(s: string): (r: string)
    ensures |r| <= |s| && r == s[|s| - |r|..]
    ensures r == [] || !IsJsWhitespace(r[0])
    ensures WhitespaceIn(s, 0, |s| - |r|)
  {
    if |s| > 0 && IsJsWhitespace(s[0]) then TrimStart(s[1..]) else s
  }

  function TrimEnd(s: string): (r: string)
    ensures |r| <= |s| && r == s[..|r|]
    ensures r == [] || !IsJsWhitespace(r[|r| - 1])
    ensures WhitespaceIn(s, |r|, |s|)
  {
    if |s| > 0 && IsJsWhitespace(s[|s| - 1]) then TrimEnd(s[..|s| - 1]) else s
  }

  /** `s.trim()`: the longest infix of `s` that neither starts nor ends with whitespace. */
  function Trim(s: string): (r: string)
    ensures |r| <= |s|
    ensures r == [] || (!IsJsWhitespace(r[0]) && !IsJsWhitespace(r[|r| - 1]))
  {
    TrimEnd(TrimStart(s))
  }

  /** The characters `trim` keeps form one block of `s`, and only whitespace lies around it. */
  lemma {:induction false} TrimIsInfix(s: string)
    ensures exists i :: 0 <= i <= i + |Trim(s)| <= |s|
                        && Trim(s) == s[i..i + |Trim(s)|]
                        && WhitespaceIn(s, 0, i) && WhitespaceIn(s, i + |Trim(s)|, |s|)
  {
    var t := TrimStart(s);
    var i := |s| - |t|;
    var r := TrimEnd(t);
    forall k | i + |r| <= k < |s| ensures IsJsWhitespace(s[k]) {
      assert s[k] == t[k - i];
    }
    assert r == s[i..i + |r|];
  }

  lemma {:induction false} TrimStartOfTrimmed(s: string)
    requires s == [] || !IsJsWhitespace(s[0])
    ensures TrimStart(s) == s
  {
  }

  lemma {:induction false} TrimEndOfTrimmed(s: string)
    requires s == [] || !IsJsWhitespace(s[|s| - 1])
    ensures TrimEnd(s) == s
  {
  }

  /** Trimming twice is trimming once. */
  lemma TrimIdempotent(s: string)
    ensures Trim(Trim(s)) == Trim(s)
  {
    var r := Trim(s);
    TrimStartOfTrimmed(r);
    TrimEndOfTrimmed(r);
  }

  /** A string trims to nothing exactly when every one of its characters is whitespace. */
  lemma {:induction false} TrimEmptyIffBlank(s: string)
    ensures Trim(s) == [] <==> AllWhitespace(s)
  {
    TrimIsInfix(s);
    var i :| 0 <= i <= i + |Trim(s)| <= |s| && Trim(s) == s[i..i + |Trim(s)|]
             && WhitespaceIn(s, 0, i) && WhitespaceIn(s, i + |Trim(s)|, |s|);
    if Trim(s) != [] {
      assert s[i] == Trim(s)[0];
    }
  }

  /** A string with no whitespace at either end is its own trim. */
  lemma TrimOfUnpadded(s: string)
    requires s == [] || (!IsJsWhitespace(s[0]) && !IsJsWhitespace(s[|s| - 1]))
    ensures Trim(s) == s
  {
    TrimStartOfTrimmed(s);
    TrimEndOfTrimmed(s);
  }

  lemma {:induction false} TrimStartSkipsPrefix(p: string, x: string)
    requires AllWhitespace(p)
    ensures TrimStart(p + x) == TrimStart(x)
    decreases |p|
  {
    if p != [] {
      assert (p + x)[0] == p[0];
      assert (p + x)[1..] == p[1..] + x;
      var p' := p[1..];
      forall k | 0 <= k < |p'| ensures IsJsWhitespace(p'[k]) {
        assert p'[k] == p[k + 1];
      }
      TrimStartSkipsPrefix(p', x);
    } else {
      assert p + x == x;
    }
  }

  lemma {:induction false} TrimEndSkipsSuffix(x: string, q: string)
    requires AllWhitespace(q)
    ensures TrimEnd(x + q) == TrimEnd(x)
    decreases |q|
  {
    if q != [] {
      var s := x + q;
      assert s[|s| - 1] == q[|q| - 1];
      assert s[..|s| - 1] == x + q[..|q| - 1];
      var q' := q[..|q| - 1];
      forall k | 0 <= k < |q'| ensures IsJsWhitespace(q'[k]) {
        assert q'[k] == q[k];
      }
      TrimEndSkipsSuffix(x, q');
    } else {
      assert x + q == x;
    }
  }

  lemma {:induction false} TrimStartAppend(t: string, q: string)
    requires TrimStart(t) != []
    ensures TrimStart(t + q) == TrimStart(t) + q
    decreases |t|
  {
    assert (t + q)[0] == t[0];
    if IsJsWhitespace(t[0]) {
      assert (t + q)[1..] == t[1..] + q;
      TrimStartAppend(t[1..], q);
    }
  }

  /** Whitespace added around a string does not change its trim. */
  lemma TrimOfPadded(p1: string, t: string, p2: string)
    requires AllWhitespace(p1) && AllWhitespace(p2)
    ensures Trim(p1 + t + p2) == Trim(t)
  {
    assert p1 + t + p2 == p1 + (t + p2);
    TrimStartSkipsPrefix(p1, t + p2);
    if TrimStart(t) == [] {
      forall k | 0 <= k < |t + p2| ensures IsJsWhitespace((t + p2)[k]) {
        if k < |t| { assert (t + p2)[k] == t[k]; } else { assert (t + p2)[k] == p2[k - |t|]; }
      }
      TrimStartSkipsPrefix(t + p2, []);
      assert t + p2 + [] == t + p2;
    } else {
      TrimStartAppend(t, p2);
      TrimEndSkipsSuffix(TrimStart(t), p2);
    }
  }

  predicate IsDigit(c: char) {
    '0' <= c <= '9'
  }

  predicate AllDigits(s: string) {
    forall k :: 0 <= k < |s| ==> IsDigit(s[k])
  }

  function DigitChar(d: nat): (c: char)
    requires d < 10
    ensures IsDigit(c) && c as int - '0' as int == d
  {
    ('0' as int + d) as char
  }

  function DigitValue(c: char): (d: nat)
    requires IsDigit(c)
    ensures d < 10 && DigitChar(d) == c
  {
    c as int - '0' as int
  }

  /** The decimal digits JavaScript prints for a non-negative integer. */
  function DecimalString(n: nat): (r: string)
    ensures |r| >= 1 && AllDigits(r)
    ensures r[0] != '0' || n == 0
  {
    if n < 10 then [DigitChar(n)] else DecimalString(n / 10) + [DigitChar(n % 10)]
  }

  /** The value of a string of decimal digits. */
  function DigitsValue(s: string): nat
    requires AllDigits(s)
  {
    if s == [] then 0 else 10 * DigitsValue(s[..|s| - 1]) + DigitValue(s[|s| - 1])
  }

  /** Reading back the printed digits gives the number. */
  lemma {:induction false} DecimalStringValue(n: nat)
    ensures DigitsValue(DecimalString(n)) == n
  {
    var r := DecimalString(n);
    if n >= 10 {
      DecimalStringValue(n / 10);
      assert r[..|r| - 1] == DecimalString(n / 10);
    }
  }

  /** `String(n)` for an integer. */
  function IntToString(n: int): (r: string)
    ensures |r| >= 1
    ensures (r[0] == '-') == (n < 0)
  {
    if n < 0 then "-" + DecimalString(-n) else DecimalString(n)
  }
}

=== FILE: json.dfy ===
/**
 * JSON values as JavaScript sees them after `JSON.parse`, with the few operators the
 * route handlers and the modal apply to them: truthiness, property access, `== null`
 * and conversion to a string.
 */
module Json {
  import opened Optional
  import opened JsText

  /** A JSON value. Numbers are integers (the flow stores only counters and cents). */
  datatype Json =
    | JNull
    | JBool(b: bool)
    | JNum(n: int)
    | JStr(s: string)
    | JArr(items: seq<Json>)
    | JObj(fields: map<string, Json>)

  /** JavaScript truthiness: `null`, `false`, `0` and `""` are falsy, everything else truthy. */
  predicate Truthy(v: Json) {
    match v
    case JNull => false
    case JBool(b) => b
    case JNum(n) => n != 0
    case JStr(s) => s != ""
    case JArr(_) => true
    case JObj(_) => true
  }

  /** `v.key` (also `v?.key`) for the data keys used by the flow: `None` is `undefined`. */
  function Prop(v: Json, key: string): (r: Option<Json>)
    ensures r.Some? <==> v.JObj? && key in v.fields
  {
    if v.JObj? && key in v.fields then Some(v.fields[key]) else None
  }

  /** The loose test `x == null`: true of `undefined` and of `null`. */
  predicate IsNullish(x: Option<Json>) {
    x.None? || x.value.JNull?
  }

  /** The truthiness of a possibly `undefined` value. */
  predicate TruthyOpt(x: Option<Json>) {
    x.Some? && Truthy(x.value)
  }

  /** `typeof v === 'object'`, which holds of `null` and of arrays too. */
  predicate TypeofObject(x: Option<Json>) {
    x.Some? && (x.value.JNull? || x.value.JArr? || x.value.JObj?)
  }

  /** `String(v)` / `v.toString()`. Arrays are joined with commas, `null` items printing as nothing. */
  function ToJsString(v: Json): string
    decreases v
  {
    match v
    case JNull => "null"
    case JBool(b) => if b then "true" else "false"
    case JNum(n) => IntToString(n)
    case JStr(s) => s
    case JObj(_) => "[object Object]"
    case JArr(items) => JoinItems(items)
  }

  /** `items.join(',')` */
  function JoinItems(items: seq<Json>): string
    decreases items
  {
    if items == [] then ""
    else
      var head := if items[0].JNull? then "" else ToJsString(items[0]);
      if |items| == 1 then head else head + "," + JoinItems(items[1..])
  }

  /** A joined array of two or more items always contains the separator. */
  lemma {:induction false} JoinItemsHasComma(items: seq<Json>)
    requires |items| >= 2
    ensures ',' in JoinItems(items)
  {
    var head := if items[0].JNull? then "" else ToJsString(items[0]);
    assert JoinItems(items) == head + "," + JoinItems(items[1..]);
    assert (head + "," + JoinItems(items[1..]))[|head|] == ',';
  }
}

=== FILE: lib_csrf.dfy ===
/**
 * The synchronous double-submit check used by the draft and commit endpoints
 * (src/lib/csrf.ts): the `csrf_token` cookie must equal the `x-csrf-token` header.
 */
module LibCsrf {
  import opened Optional
  import opened Http

  const CookieName: string := "csrf_token"
  const HeaderName: string := "x-csrf-token"
  const DefaultMessage: string := "CSRF token mismatch"

  /** The error the check throws; whatever its message, it answers 403. */
  datatype CsrfError = CsrfError(message: string) {
    const name: string := "CsrfError"
    const status: int := 403
  }

  /** `!cookie || !header || cookie !== header`: a missing or empty value counts as absent. */
  predicate Rejects(cookie: Option<string>, header: Option<string>)
    ensures !Rejects(cookie, header) <==> cookie.Some? && cookie.value != "" && header == cookie
  {
    || cookie.None? || cookie.value == ""
    || header.None? || header.value == ""
    || cookie.value != header.value
  }

  /** `assertCsrf(req)`: `Some(error)` when it throws, `None` when it returns normally. */
  function AssertCsrf(req: Request): (r: Option<CsrfError>)
    ensures r.Some? ==> r.value.status == 403 && r.value.message == DefaultMessage
    ensures r.None? <==> Cookie(req, CookieName).Some? && Cookie(req, CookieName).value != ""
                         && Header(req, HeaderName) == Cookie(req, CookieName)
  {
    if Rejects(Cookie(req, CookieName), Header(req, HeaderName)) then Some(CsrfError(DefaultMessage)) else None
  }

  lemma MissingCookieRejected(header: Option<string>)
    ensures Rejects(None, header)
  {
  }

  lemma MissingHeaderRejected(cookie: Option<string>)
    ensures Rejects(cookie, None)
  {
  }

  lemma DifferentValuesRejected(cookie: string, header: string)
    requires cookie != header
    ensures Rejects(Some(cookie), Some(header))
  {
  }

  lemma EmptyCountsAsMissing(other: Option<string>)
    ensures Rejects(Some(""), other) && Rejects(other, Some(""))
  {
  }

  lemma EqualTokensAccepted(token: string)
    requires token != ""
    ensures !Rejects(Some(token), Some(token))
  {
  }
}

=== FILE: optional.dfy ===
/** The optional value used for TypeScript's `T | null` and for values that may be absent. */
module Optional {

  datatype Option<+T> = None | Some(value: T) {

    /** `x ?? fallback`: the value when present, otherwise the fallback. */
    function GetOr(fallback: T): T {
      match this
      case Some(v) => v
      case None => fallback
    }
  }
}

=== FILE: resume.dfy ===
/**
 * How the modal picks the screen to resume on from the cancellation row the start endpoint
 * returns (`inferStepFromRow`), and how it reads the reason back (`mapReasonBack`).
 */
module Resume {
  import opened Optional
  import opened Json
  import opened CancelTypes
  import Gates

  /**
   * The wizard's screens: 0 entry, 1..4 the found-a-job path, 10..16 the still-looking path
   * (10 the up-front offer, 11 reason, 12 usage, 13 confirm, 15 cancelled, 16 discount taken).
   */
  datatype Step = Entry | JobDetails | Feedback | Visa | FoundDone
                | DownsellOffer | Reason | Usage | Confirm | CancelDone | DiscountDone
  {
    function Id(): nat {
      match this
      case Entry => 0
      case JobDetails => 1
      case Feedback => 2
      case Visa => 3
      case FoundDone => 4
      case DownsellOffer => 10
      case Reason => 11
      case Usage => 12
      case Confirm => 13
      case CancelDone => 15
      case DiscountDone => 16
    }

    predicate FoundPath() {
      this in {JobDetails, Feedback, Visa, FoundDone}
    }

    predicate StillLookingPath() {
      this in {DownsellOffer, Reason, Usage, Confirm, CancelDone, DiscountDone}
    }
  }

  lemma StepIdsDistinct(s: Step, t: Step)
    ensures s.Id() == t.Id() <==> s == t
  {
  }

  /** The labels the reason screen shows, and stores in the `reason` column. */
  function Label(k: ReasonKey): (l: string)
    ensures l != ""
  {
    match k
    case TooExpensive => "Too expensive"
    case PlatformNotHelpful => "Platform not helpful"
    case NotEnoughRelevantJobs => "Not enough relevant jobs"
    case DecidedNotToMove => "Decided not to move"
    case Other => "Other"
  }

  /** The key whose text is `s`, if any: `[...keys].includes(s)`. */
  function ReasonFromKey(s: string): (r: Option<ReasonKey>)
    ensures r.Some? ==> r.value.Key() == s
    ensures r.None? ==> forall k: ReasonKey :: k.Key() != s
  {
    if s == "too_expensive" then Some(TooExpensive)
    else if s == "platform_not_helpful" then Some(PlatformNotHelpful)
    else if s == "not_enough_relevant_jobs" then Some(NotEnoughRelevantJobs)
    else if s == "decided_not_to_move" then Some(DecidedNotToMove)
    else if s == "other" then Some(Other)
    else None
  }

  lemma ReasonKeyRoundTrip(k: ReasonKey)
    ensures ReasonFromKey(k.Key()) == Some(k)
  {
  }

  /** `(row.extra_details?.reason_key || '').toString()` */
  function StoredReasonKey(row: CancellationRow): string {
    var v := Prop(row.extraDetails, "reason_key");
    if TruthyOpt(v) then ToJsString(v.value) else ""
  }

  /** `mapReasonBack(row)` */
  function MapReasonBack(row: CancellationRow): (r: Option<ReasonKey>)
    ensures r.Some? ==> r.value.Key() == StoredReasonKey(row)
    ensures r.Some? ==> row.extraDetails.JObj? && "reason_key" in row.extraDetails.fields
  {
    ReasonFromKey(StoredReasonKey(row))
  }

  /** A stored key string is read back as that key. */
  lemma MapReasonBackOfKey(row: CancellationRow, k: ReasonKey)
    requires row.extraDetails.JObj? && "reason_key" in row.extraDetails.fields
    requires row.extraDetails.fields["reason_key"] == JStr(k.Key())
    ensures MapReasonBack(row) == Some(k)
  {
  }

  /** Anything else, `null` included, reads back as no reason. */
  lemma MapReasonBackOfOther(row: CancellationRow)
    requires forall k: ReasonKey :: StoredReasonKey(row) != k.Key()
    ensures MapReasonBack(row).None?
  {
  }

  /** `toString` lets a one-element array through: `["other"]` reads back as `other`. */
  lemma MapReasonBackOfArray(row: CancellationRow, k: ReasonKey)
    requires row.extraDetails == JObj(map["reason_key" := JArr([JStr(k.Key())])])
    ensures MapReasonBack(row) == Some(k)
  {
    assert StoredReasonKey(row) == JoinItems([JStr(k.Key())]) == k.Key();
  }

  /** `(row.extra_details || {})` */
  function Details(row: CancellationRow): (ed: Json)
    ensures Truthy(row.extraDetails) ==> ed == row.extraDetails
    ensures !Truthy(row.extraDetails) ==> ed == JObj(map[])
  {
    if Truthy(row.extraDetails) then row.extraDetails else JObj(map[])
  }

  /** `ed?.usage_applied == null || ed?.usage_emailed == null || ed?.usage_interviews == null` */
  predicate UsageMissing(ed: Json) {
    IsNullish(Prop(ed, "usage_applied")) || IsNullish(Prop(ed, "usage_emailed")) || IsNullish(Prop(ed, "usage_interviews"))
  }

  /** A text column that is `null` or `""` (the `!row.x` test on a text column). */
  predicate Blank(x: Option<string>) {
    x.None? || x.value == ""
  }

  /**
   * `inferStepFromRow(row)`: the first rule that matches decides the screen. `variant` is the
   * value of `variant` the function sees, which is the one captured when the modal mounted.
   */
  function InferStep(row: CancellationRow, variant: Variant): (s: Step)
    ensures s.FoundPath() <==> row.jobFound == Some(true)
    ensures s.StillLookingPath() <==> row.jobFound == Some(false)
    ensures s == Entry <==> row.jobFound.None?
    ensures s != CancelDone
    ensures s == DiscountDone <==> row.jobFound == Some(false) && row.acceptedDownsell == Some(true)
  {
    match row.jobFound
    case Some(true) =>
      if row.foundJobWithMm != Some(true) || row.rolesAppliedMm.None? then JobDetails
      else if Blank(row.feedbackText) then Feedback
      else if row.companyProvidesLawyer.None? || Blank(row.visaType) then Visa
      else FoundDone
    case Some(false) =>
      if row.acceptedDownsell == Some(true) then DiscountDone
      else if Blank(row.reason) then (if variant == B then DownsellOffer else Reason)
      else if UsageMissing(Details(row)) then Usage
      else Confirm
    case None => Entry
  }

  /** A taken discount resumes on its screen whatever the reason and usage columns hold. */
  lemma DiscountTakenWins(row: CancellationRow, variant: Variant, reason: Option<string>, details: Json)
    requires row.jobFound == Some(false) && row.acceptedDownsell == Some(true)
    ensures InferStep(row.(reason := reason, extraDetails := details), variant) == DiscountDone
  {
  }

  /** `!row.found_job_with_mm`: a stored "no, not through MigrateMate" sends the user back to screen 1. */
  lemma FoundElsewhereRestarts(row: CancellationRow, variant: Variant)
    requires row.jobFound == Some(true) && row.foundJobWithMm == Some(false)
    ensures InferStep(row, variant) == JobDetails
  {
  }

  /** Only `roles_applied_mm` is checked: a row without the other two counters resumes past screen 1. */
  lemma OnlyAppliedCounterChecked(row: CancellationRow, variant: Variant)
    requires row.jobFound == Some(true) && row.foundJobWithMm == Some(true) && row.rolesAppliedMm.Some?
    requires row.companiesEmailed.None? && row.companiesInterviewed.None?
    ensures InferStep(row, variant) != JobDetails
    ensures !Gates.CanContinue1(row.foundJobWithMm, row.rolesAppliedMm, row.companiesEmailed, row.companiesInterviewed)
  {
  }

  /** The variant decides only between the offer and the reason screen, for a row with no reason. */
  lemma VariantMattersOnlyWithoutReason(row: CancellationRow)
    ensures InferStep(row, A) != InferStep(row, B) <==>
              row.jobFound == Some(false) && row.acceptedDownsell != Some(true) && Blank(row.reason)
    ensures InferStep(row, A) != InferStep(row, B) ==> InferStep(row, A) == Reason && InferStep(row, B) == DownsellOffer
  {
  }

  /**
   * The modal passes the variant it mounted with, `A`, so a variant-B user who left on the
   * offer screen resumes on the reason screen and skips the up-front offer.
   */
  lemma StaleVariantSkipsOffer(row: CancellationRow)
    requires row.downsellVariant == B && row.jobFound == Some(false)
    requires row.acceptedDownsell != Some(true) && Blank(row.reason)
    ensures InferStep(row, A) == Reason
    ensures InferStep(row, row.downsellVariant) == DownsellOffer
  {
  }

  /** Resume never lands on screen 15. */
  lemma NeverResumesOnCancelled(row: CancellationRow, variant: Variant)
    ensures InferStep(row, variant) != CancelDone
  {
  }

  /** A usage screen answer that is missing or `null` keeps the user on the usage screen. */
  lemma NullUsageResumesOnUsage(row: CancellationRow, variant: Variant, key: string)
    requires row.jobFound == Some(false) && row.acceptedDownsell != Some(true) && !Blank(row.reason)
    requires key in {"usage_applied", "usage_emailed", "usage_interviews"}
    requires row.extraDetails.JObj? && (key !in row.extraDetails.fields || row.extraDetails.fields[key] == JNull)
    ensures InferStep(row, variant) == Usage
  {
  }
}

=== FILE: scenarios.dfy ===
/**
 * Runs that chain the modal and the routes and end somewhere the design did not mean to go:
 * a discount that is cancelled all the same, a failed discount that leaves no screen content,
 * a stored variant B that is not offered the discount on resume, the modal's requests refused by
 * the draft and commit endpoints, and an update with no token at all that is written.
 */
module Scenarios {
  import opened Optional
  import opened Json
  import opened CancelTypes
  import opened Http
  import opened CsrfProtocol
  import opened CancelRequest
  import opened Store
  import opened Gates
  import opened Resume
  import opened CancelModal
  import opened FlowConsistency
  import UtilsCsrf
  import LibCsrf
  import UpdateRoute
  import ContinueRoute
  import CompleteRoute
  import DraftRoute
  import CommitRoute

  /**
   * Taking the discount and then asking for completion: both answer 200, the row keeps the
   * discount, and the subscription is set to cancel all the same.
   */
  method DiscountThenComplete(db: Database, token: string, id: Id, now: Timestamp) returns (r1: Response, r2: Response)
    requires id != "" && id in db.cancellations
    modifies db
    ensures r1 == Response(200, OkReply) && r2 == Response(200, OkReply)
    ensures db.cancellations == old(db.cancellations)[id := old(db.cancellations)[id].(acceptedDownsell := Some(true))]
    ensures db.subscriptions == SetPending(old(db.subscriptions), old(db.cancellations)[id].subscriptionId, now)
  {
    r1 := ContinueRoute.Post(db, CallRequest(ContinueCall(token, Some(id))), false);
    r2 := CompleteRoute.Post(db, CallRequest(CompleteCall(token, Some(id))), now, false, false);
  }

  /**
   * The offer box's "Get $10 off" failing: `continued` stays set, the box and its "No thanks" are
   * gone, and after the usage and confirm screens the modal reaches screen 15, which is not shown
   * when `continued` is set, so the modal shows no screen content, only the error banner.
   */
  method FailedDiscountEndsOnEmptyScreen(m: Modal, error: Option<string>, usageReply: FetchReply, completeReply: FetchReply)
    requires m.Valid() && m.step == Usage && m.variant == B && !m.continued && m.HasId()
    requires CanContinueUsage(m.looking.uApplied, m.looking.uEmailed, m.looking.uInterviews)
    requires usageReply.Ok? && !completeReply.NetworkError?
    modifies m
    ensures m.step == CancelDone && m.continued && !m.ShowsScreen()
    ensures m.error == PatchErrorText(NotOk(error))
  {
    m.AcceptDiscount(NotOk(error), Ok);
    m.SubmitUsage(usageReply);
    m.ConfirmCancel(completeReply);
  }

  /**
   * Resuming a still-looking row of variant B that has no reason yet: the modal takes on variant B
   * but opens the reason screen, so the offer is skipped.
   */
  method ResumeSkipsOffer(token: string, id: Id, row: CancellationRow, price: Option<int>) returns (m: Modal)
    requires row.jobFound == Some(false) && row.acceptedDownsell != Some(true) && Blank(row.reason)
    requires row.downsellVariant == B
    ensures m.variant == B && m.step == Reason && m.Valid()
  {
    m := new Modal();
    m.Start(Started(token, id, row, price));
  }

  /** The draft endpoint refuses every request the modal could send it, and writes nothing. */
  method DraftFromModal(db: Database, token: string, body: Body, draw: nat, now: Timestamp, dbNow: Timestamp,
                        freshId: Id, readFails: bool, writeFails: bool) returns (r: Response)
    requires draw < 2
    modifies db
    ensures r == Response(403, ErrorReply(Some(LibCsrf.DefaultMessage))) && unchanged(db)
  {
    ModalRequestFailsLibCheck(token, body);
    r := DraftRoute.Post(db, ModalRequest(token, body), draw, now, dbNow, freshId, readFails, writeFails);
  }

  /** So does the commit endpoint. */
  method CommitFromModal(db: Database, token: string, body: Body, now: Timestamp,
                         readFails: bool, commitFails: bool, subscriptionFails: bool) returns (r: Response)
    modifies db
    ensures r == Response(403, ErrorReply(Some(LibCsrf.DefaultMessage))) && unchanged(db)
  {
    ModalRequestFailsLibCheck(token, body);
    r := CommitRoute.Post(db, ModalRequest(token, body), now, readFails, commitFails, subscriptionFails);
  }

  /**
   * An update with neither cookie nor header, which the token check would refuse, is written:
   * the check is started but not awaited.
   */
  method ForgedUpdateIsWritten(db: Database, id: Id, patch: map<string, Json>) returns (r: Response)
    requires id != "" && id in db.cancellations && UpdateRoute.Writable(patch)
    modifies db
    ensures UtilsCsrf.AssertCsrf(Request(map[], map[], JsonBody(UpdateBody(id, patch)))).Some?
    ensures r.status == 200 <==> patch != map[]
    ensures db.cancellations == old(db.cancellations)[id := UpdateRoute.PatchRow(old(db.cancellations)[id], patch).value]
  {
    var req := Request(map[], map[], JsonBody(UpdateBody(id, patch)));
    AllowlistedPatchPassesFilter(patch);
    assert UpdateRoute.OwnEntries(JObj(patch)) == patch;
    r := UpdateRoute.Patch(db, req, false);
    if patch == map[] {
      UpdateRoute.EmptyPatchKeepsRow(old(db.cancellations)[id]);
    }
  }
}

=== FILE: start_route.dfy ===
/**
 * POST /api/cancel/start: find the user's one active subscription, then hand back the user's
 * most recent cancellation, whatever its status, or insert a new one with a random variant.
 */
module StartRoute {
  import opened Optional
  import opened CancelTypes
  import opened Http
  import opened Store

  const NoActiveSubscription: string := "No active subscription"
  const CreateFailed: string := "Create failed"

  /** The row the insert `{ user_id, subscription_id, downsell_variant, accepted_downsell: false }` creates. */
  function StartedRow(user: string, sub: Id, variant: Variant, createdAt: Timestamp): (r: CancellationRow)
    ensures r.userId == user && r.subscriptionId == sub && r.downsellVariant == variant
    ensures r.acceptedDownsell == Some(false) && r.status.None? && r.createdAt == createdAt
  {
    NewRow(user, sub, variant, createdAt).(acceptedDownsell := Some(false))
  }

  /**
   * The handler, for the mock user `user`. The CSRF call is not awaited and never stops the
   * request (see `UtilsCsrf.UnawaitedCheckNeverBlocks`). `subFails`, `listFails` and
   * `insertFails` stand for errors from the three queries; the error of the list query is not
   * looked at, so a failed list reads as no rows. `freshId` and `dbNow` are the id and
   * `created_at` the database gives an inserted row.
   */
  method Post(db: Database, req: Request, user: string, draw: nat, dbNow: Timestamp, freshId: Id,
              subFails: bool, listFails: bool, insertFails: bool) returns (r: Response)
    requires draw < 2
    modifies db
    ensures r.status in {200, 404, 500}
    ensures db.subscriptions == old(db.subscriptions)
    ensures r.status != 200 ==> unchanged(db)
    // `.maybeSingle()`: no active subscription, or more than one, answers 404
    ensures subFails || |ActiveSubscriptionIds(old(db.subscriptions), user)| != 1 ==>
              r == Response(404, ErrorReply(Some(NoActiveSubscription)))
    ensures forall sid :: !subFails && ActiveSubscriptionIds(old(db.subscriptions), user) == {sid} ==>
              if !listFails && UserRowIds(old(db.cancellations), user) != {} then
                // an earlier cancellation is reused, even a committed one
                && r.status == 200 && r.reply.StartedReply?
                && r.reply.id in LatestIds(old(db.cancellations), user)
                && r.reply.row == old(db.cancellations)[r.reply.id]
                && r.reply.subscriptionId == sid && r.reply.subscription == old(db.subscriptions)[sid]
                && unchanged(db)
              else if insertFails || freshId in old(db.cancellations) then
                r == Response(500, ErrorReply(Some(CreateFailed)))
              else
                var row := StartedRow(user, sid, VariantOfDraw(draw), dbNow);
                && r == Response(200, StartedReply(freshId, row, sid, old(db.subscriptions)[sid]))
                && db.cancellations == old(db.cancellations)[freshId := row]
  {
    var subs := ActiveSubscriptionIds(db.subscriptions, user);
    if subFails || |subs| != 1 {
      return Response(404, ErrorReply(Some(NoActiveSubscription)));
    }
    var sid :| sid in subs;
    OnlyElement(subs, sid);
    var sub := db.subscriptions[sid];
    var existing := if listFails then {} else UserRowIds(db.cancellations, user);
    if existing != {} {
      LatestExists(db.cancellations, user);
      var id :| id in LatestIds(db.cancellations, user);
      return Response(200, StartedReply(id, db.cancellations[id], sid, sub));
    }
    var variant := VariantOfDraw(draw);
    if insertFails || freshId in db.cancellations {
      return Response(500, ErrorReply(Some(CreateFailed)));
    }
    var row := StartedRow(user, sid, variant, dbNow);
    db.cancellations := db.cancellations[freshId := row];
    r := Response(200, StartedReply(freshId, row, sid, sub));
  }

  /** A user starting twice gets the row the first start created, with its variant. */
  method StartTwice(db: Database, req: Request, user: string, draw1: nat, draw2: nat, dbNow: Timestamp,
                    freshId1: Id, freshId2: Id) returns (r1: Response, r2: Response)
    requires draw1 < 2 && draw2 < 2
    requires UserRowIds(db.cancellations, user) == {}
    modifies db
    ensures r1.status == 200 ==> r2 == r1
  {
    var subs := ActiveSubscriptionIds(db.subscriptions, user);
    r1 := Post(db, req, user, draw1, dbNow, freshId1, false, false, false);
    if r1.status == 200 {
      var sid :| sid in subs;
      OnlyElement(subs, sid);
      LatestAfterFirstInsert(old(db.cancellations), user, freshId1, StartedRow(user, sid, VariantOfDraw(draw1), dbNow));
    }
    r2 := Post(db, req, user, draw2, dbNow, freshId2, false, false, false);
  }
}

=== FILE: step_found_job_feedback.dfy ===
/** The feedback step component of the found-a-job path and the checks of its Continue button. */
module StepFoundJobFeedback {
  import opened Optional
  import opened JsText

  /** The value the step is mounted with. */
  datatype FeedbackValue = FeedbackValue(foundViaMm: Option<bool>, foundJobFeedback: Option<string>)

  /** `useState(value?.found_via_mm ?? null)` and `useState(value?.found_job_feedback ?? '')` */
  function InitialState(value: Option<FeedbackValue>): (s: (Option<bool>, string))
    ensures value.None? ==> s == (None, "")
    ensures value.Some? ==> s == (value.value.foundViaMm, value.value.foundJobFeedback.GetOr(""))
  {
    if value.None? then (None, "") else (value.value.foundViaMm, value.value.foundJobFeedback.GetOr(""))
  }

  const TooShort: string := "Please write at least 25 characters."
  const AskFoundVia: string := "Please tell us if you found it through MigrateMate."
  const MinFeedback: nat := 25

  datatype ContinueResult = ShowError(message: string) | Next(foundViaMm: bool, foundJobFeedback: string)

  /** `handleContinue()` */
  function HandleContinue(foundVia: Option<bool>, text: string): (r: ContinueResult) {
    var trimmed := Trim(text);
    if |trimmed| < MinFeedback then ShowError(TooShort)
    else if foundVia.None? then ShowError(AskFoundVia)
    else Next(foundVia.value, trimmed)
  }

  /** The click succeeds exactly with 25 trimmed characters and an answer, and hands on both. */
  lemma HandleContinueIff(foundVia: Option<bool>, text: string)
    ensures HandleContinue(foundVia, text).Next? <==> |Trim(text)| >= MinFeedback && foundVia.Some?
    ensures HandleContinue(foundVia, text).Next? ==>
              HandleContinue(foundVia, text) == Next(foundVia.value, Trim(text))
              && Trim(HandleContinue(foundVia, text).foundJobFeedback) == HandleContinue(foundVia, text).foundJobFeedback
  {
    var trimmed := Trim(text);
    TrimIdempotent(text);
    assert Trim(trimmed) == trimmed;
  }

  /** Mounting the step again with the answer it handed on, and clicking Continue, hands on the same answer. */
  lemma {:induction false} RemountHandsOnSameAnswer(foundVia: Option<bool>, text: string)
    requires HandleContinue(foundVia, text).Next?
    ensures var n := HandleContinue(foundVia, text);
            var s := InitialState(Some(FeedbackValue(Some(n.foundViaMm), Some(n.foundJobFeedback))));
            HandleContinue(s.0, s.1) == n
  {
    var n := HandleContinue(foundVia, text);
    HandedOnIsFixedPoint(foundVia, text, n.foundViaMm, n.foundJobFeedback);
    MountWithAnswer(n.foundViaMm, n.foundJobFeedback, n);
  }

  /** Clicking Continue on the answer it handed on hands on the same answer. */
  lemma {:induction false} HandedOnIsFixedPoint(foundVia: Option<bool>, text: string, v: bool, t: string)
    requires HandleContinue(foundVia, text) == Next(v, t)
    ensures HandleContinue(Some(v), t) == Next(v, t)
  {
    HandleContinueIff(foundVia, text);
    ContinueOfTrimmed(v, text);
  }

  /** Mounting with an answer that Continue hands on unchanged, Continue hands it on again. */
  lemma MountWithAnswer(foundVia: bool, t: string, n: ContinueResult)
    requires n == Next(foundVia, t) && HandleContinue(Some(foundVia), t) == n
    ensures var s := InitialState(Some(FeedbackValue(Some(n.foundViaMm), Some(n.foundJobFeedback))));
            HandleContinue(s.0, s.1) == n
  {
  }

  /** A text long enough after trimming, with an answer, is handed on trimmed, once more when it is already trimmed. */
  lemma ContinueOfTrimmed(foundVia: bool, text: string)
    requires |Trim(text)| >= MinFeedback
    ensures HandleContinue(Some(foundVia), Trim(text)) == Next(foundVia, Trim(text))
  {
    TrimIdempotent(text);
    ContinueOfLong(foundVia, Trim(text));
  }

  lemma ContinueOfLong(foundVia: bool, t: string)
    requires |Trim(t)| >= MinFeedback
    ensures HandleContinue(Some(foundVia), t) == Next(foundVia, Trim(t))
  {
  }

  /** The length is checked first: short text reports the length even with no answer. */
  lemma LengthCheckedFirst(foundVia: Option<bool>, text: string)
    requires |Trim(text)| < MinFeedback
    ensures HandleContinue(foundVia, text) == ShowError(TooShort)
  {
  }

  /** Whitespace around the text neither helps nor hurts. */
  lemma PaddingIgnored(foundVia: Option<bool>, pad1: string, text: string, pad2: string)
    requires AllWhitespace(pad1) && AllWhitespace(pad2)
    ensures HandleContinue(foundVia, pad1 + text + pad2) == HandleContinue(foundVia, text)
  {
    TrimOfPadded(pad1, text, pad2);
  }
}

=== FILE: step_reasons.dfy ===
/**
 * The reasons step component: a table of reason codes, each asking for a price or for a text,
 * and the ordered checks of its Continue button.
 */
module StepReasons {
  import opened Optional
  import opened JsText

  datatype FollowKind = Price | Text

  datatype ReasonEntry = ReasonEntry(code: string, caption: string, follow: FollowKind)

  /** `REASONS` */
  const Reasons: seq<ReasonEntry> := [
    ReasonEntry("too_expensive", "Too expensive", Price),
    ReasonEntry("not_using", "Not using it enough", Text),
    ReasonEntry("switched", "Switched to another product", Text),
    ReasonEntry("visa_not_helpful", "Visa support wasn’t helpful", Text),
    ReasonEntry("technical", "Technical issues", Text),
    ReasonEntry("other", "Other", Text)]

  /** `REASONS.find(r => r.code === code)` */
  function Find(table: seq<ReasonEntry>, code: string): (r: Option<ReasonEntry>)
    ensures r.Some? ==> r.value in table && r.value.code == code
    ensures r.None? <==> forall i :: 0 <= i < |table| ==> table[i].code != code
    ensures r.Some? ==> exists i :: 0 <= i < |table| && table[i] == r.value
                                    && forall j :: 0 <= j < i ==> table[j].code != code
  {
    if table == [] then None
    else if table[0].code == code then Some(table[0])
    else
      var r := Find(table[1..], code);
      if r.Some? then
        var i :| 0 <= i < |table[1..]| && table[1..][i] == r.value && forall j :: 0 <= j < i ==> table[1..][j].code != code;
        assert table[i + 1] == r.value;
        r
      else r
  }

  function Selected(code: string): Option<ReasonEntry> {
    Find(Reasons, code)
  }

  /** The value the step is mounted with. */
  datatype ReasonsValue = ReasonsValue(reasonCode: Option<string>, followUp: Option<string>)

  /** `useState(value?.reason_code ?? '')` and `useState(value?.follow_up ?? '')` */
  function InitialState(value: Option<ReasonsValue>): (s: (string, string))
    ensures value.None? ==> s == ("", "")
    ensures value.Some? ==> s == (value.value.reasonCode.GetOr(""), value.value.followUp.GetOr(""))
  {
    if value.None? then ("", "") else (value.value.reasonCode.GetOr(""), value.value.followUp.GetOr(""))
  }

  const PickReason: string := "Please pick a reason."
  const InvalidPrice: string := "Please enter a valid price."
  const NeedExplanation: string := "Please add a brief explanation."
  const MinExplanation: nat := 5

  /** What a click does: set an error and stop, or clear the error and hand the answer on. */
  datatype ClickResult = ShowError(message: string) | Next(reasonCode: string, followUp: string)

  /**
   * `continueClick()`. `PositivePrice(follow)` stands for the test
   * `Number.isFinite(Number(follow)) && Number(follow) > 0`, which is left abstract.
   */
  function ContinueClick(code: string, follow: string, PositivePrice: string -> bool): (r: ClickResult) {
    if code == "" then ShowError(PickReason)
    else
      var selected := Selected(code);
      if selected.Some? && selected.value.follow == Price then
        if !PositivePrice(follow) then ShowError(InvalidPrice) else Next(code, Trim(follow))
      else if selected.Some? && |Trim(follow)| < MinExplanation then ShowError(NeedExplanation)
      else Next(code, Trim(follow))
  }

  /** The click succeeds exactly when a code is chosen and the detail its entry asks for is given. */
  lemma ContinueClickSucceedsIff(code: string, follow: string, PositivePrice: string -> bool)
    ensures ContinueClick(code, follow, PositivePrice).Next? <==>
              && code != ""
              && (code == "too_expensive" ==> PositivePrice(follow))
              && (code in {"not_using", "switched", "visa_not_helpful", "technical", "other"} ==> |Trim(follow)| >= MinExplanation)
    ensures ContinueClick(code, follow, PositivePrice).Next? ==>
              ContinueClick(code, follow, PositivePrice) == Next(code, Trim(follow))
  {
    SelectedCodes(code);
  }

  lemma SelectedCodes(code: string)
    ensures Selected(code).Some? <==> code in {"too_expensive", "not_using", "switched", "visa_not_helpful", "technical", "other"}
    ensures Selected(code).Some? ==> (Selected(code).value.follow == Price <==> code == "too_expensive")
  {
  }

  /**
   * Mounting the step again with the answer it handed on, and clicking Continue, hands on the same
   * answer, provided the price test reads the trimmed text as it read the untrimmed one.
   */
  lemma {:induction false} RemountHandsOnSameAnswer(code: string, follow: string, PositivePrice: string -> bool)
    requires ContinueClick(code, follow, PositivePrice).Next?
    requires PositivePrice(Trim(follow)) == PositivePrice(follow)
    ensures var n := ContinueClick(code, follow, PositivePrice);
            var s := InitialState(Some(ReasonsValue(Some(n.reasonCode), Some(n.followUp))));
            ContinueClick(s.0, s.1, PositivePrice) == n
  {
    ContinueClickSucceedsIff(code, follow, PositivePrice);
    var n := ContinueClick(code, follow, PositivePrice);
    assert n == Next(code, Trim(follow));
    TrimIdempotent(follow);
    var s := InitialState(Some(ReasonsValue(Some(n.reasonCode), Some(n.followUp))));
    assert s == (code, Trim(follow));
    ContinueClickSucceedsIff(s.0, s.1, PositivePrice);
  }

  /** The checks run in order: without a code nothing else is looked at. */
  lemma NoCodeFirst(follow: string, PositivePrice: string -> bool)
    ensures ContinueClick("", follow, PositivePrice) == ShowError(PickReason)
  {
  }

  /** A code outside the table is handed on without any check on the follow-up. */
  lemma UnknownCodeSkipsChecks(code: string, follow: string, PositivePrice: string -> bool)
    requires code != "" && Selected(code).None?
    ensures ContinueClick(code, follow, PositivePrice) == Next(code, Trim(follow))
  {
  }

  /** The follow-up handed on is trimmed. */
  lemma FollowUpTrimmed(code: string, follow: string, PositivePrice: string -> bool)
    requires ContinueClick(code, follow, PositivePrice).Next?
    ensures Trim(ContinueClick(code, follow, PositivePrice).followUp) == ContinueClick(code, follow, PositivePrice).followUp
  {
    ContinueClickSucceedsIff(code, follow, PositivePrice);
    TrimIdempotent(follow);
  }
}

=== FILE: store.dfy ===
/**
 * The database the route handlers talk to, as two in-memory tables keyed by row id, and the
 * filters the handlers' queries apply to them.
 */
module Store {
  import opened Optional
  import opened CancelTypes

  class Database {
    var cancellations: map<Id, CancellationRow>
    var subscriptions: map<Id, Subscription>

    constructor (cancellations0: map<Id, CancellationRow>, subscriptions0: map<Id, Subscription>)
      ensures cancellations == cancellations0 && subscriptions == subscriptions0
    {
      cancellations := cancellations0;
      subscriptions := subscriptions0;
    }
  }

  /** `.eq('user_id', user).eq('subscription_id', sub).eq('status', 'draft')` on `cancellations`. */
  function DraftIds(c: map<Id, CancellationRow>, user: string, sub: Id): (ids: set<Id>)
    ensures forall id :: id in ids <==> id in c && c[id].userId == user && c[id].subscriptionId == sub
                                           && c[id].status == Some(Draft)
  {
    set id | id in c && c[id].userId == user && c[id].subscriptionId == sub && c[id].status == Some(Draft)
  }

  /** `.eq('user_id', user)` on `cancellations`, whatever the status. */
  function UserRowIds(c: map<Id, CancellationRow>, user: string): (ids: set<Id>)
    ensures forall id :: id in ids <==> id in c && c[id].userId == user
  {
    set id | id in c && c[id].userId == user
  }

  /** The rows `.order('created_at', { ascending: false }).limit(1)` may return first. */
  function LatestIds(c: map<Id, CancellationRow>, user: string): (ids: set<Id>)
    ensures ids <= UserRowIds(c, user)
  {
    set id | id in c && c[id].userId == user && IsLatest(c, user, id)
  }

  predicate IsLatest(c: map<Id, CancellationRow>, user: string, id: Id)
    requires id in c
  {
    forall other :: other in c && c[other].userId == user ==> c[other].createdAt <= c[id].createdAt
  }

  /** `.eq('user_id', user).eq('status', 'active')` on `subscriptions`. */
  function ActiveSubscriptionIds(s: map<Id, Subscription>, user: string): (ids: set<Id>)
    ensures forall id :: id in ids <==> id in s && s[id].userId == user && s[id].status == Active
  {
    set id | id in s && s[id].userId == user && s[id].status == Active
  }

  /**
   * `.update({ status: 'pending_cancellation', updated_at: now }).eq('id', id)` on `subscriptions`:
   * an id that matches no row updates nothing and is not an error.
   */
  function SetPending(s: map<Id, Subscription>, id: Id, now: Timestamp): (s': map<Id, Subscription>)
    ensures s'.Keys == s.Keys
    ensures forall other :: other in s && other != id ==> s'[other] == s[other]
    ensures id in s ==> s'[id] == s[id].(status := PendingCancellation, updatedAt := Some(now))
  {
    if id in s then s[id := s[id].(status := PendingCancellation, updatedAt := Some(now))] else s
  }

  /** A one-element set is the singleton of any of its elements. */
  lemma OnlyElement<T>(s: set<T>, x: T)
    requires |s| == 1 && x in s
    ensures s == {x}
  {
    assert |s - {x}| == 0;
  }

  /** A user with at least one cancellation has a most recent one. */
  lemma LatestExists(c: map<Id, CancellationRow>, user: string)
    requires UserRowIds(c, user) != {}
    ensures LatestIds(c, user) != {}
  {
    var id := LatestOf(c, user, UserRowIds(c, user));
    assert id in LatestIds(c, user);
  }

  /** An element of `pool` whose `created_at` is at least that of every row in `pool`. */
  lemma {:induction false} MaxOfPool(c: map<Id, CancellationRow>, pool: set<Id>) returns (m: Id)
    requires pool != {} && pool <= c.Keys
    ensures m in pool && forall other :: other in pool ==> c[other].createdAt <= c[m].createdAt
    decreases |pool|
  {
    var x :| x in pool;
    if pool == {x} {
      m := x;
    } else {
      var rest := MaxOfPool(c, pool - {x});
      m := if c[x].createdAt <= c[rest].createdAt then rest else x;
    }
  }

  lemma LatestOf(c: map<Id, CancellationRow>, user: string, pool: set<Id>) returns (m: Id)
    requires pool == UserRowIds(c, user) && pool != {}
    ensures m in pool && IsLatest(c, user, m)
  {
    m := MaxOfPool(c, pool);
  }

  /** Once a user's only cancellation is inserted, it is the one the start query returns. */
  lemma {:induction false} LatestAfterFirstInsert(c: map<Id, CancellationRow>, user: string, id: Id, row: CancellationRow)
    requires UserRowIds(c, user) == {} && row.userId == user
    ensures UserRowIds(c[id := row], user) == {id}
    ensures LatestIds(c[id := row], user) == {id}
  {
    var c' := c[id := row];
    forall other | other in c && other != id ensures c'[other].userId != user {
      assert other !in UserRowIds(c, user);
    }
    assert IsLatest(c', user, id);
  }
}

=== FILE: update_route.dfy ===
/**
 * PATCH /api/cancel/update: copy the allowlisted keys of `body.patch` into a fresh object and
 * write it over the cancellation `body.cancellationId`.
 */
module UpdateRoute {
  import opened Optional
  import opened JsText
  import opened Json
  import opened CancelTypes
  import opened Http
  import opened Store
  import opened CancelRequest

  const InvalidPayload: string := "Invalid payload"
  const UpdateFailed: string := "Update failed"

  const BoolColumns: set<string> := {"job_found", "found_job_with_mm", "company_provides_lawyer", "accepted_downsell"}
  const IntColumns: set<string> := {"roles_applied_mm", "companies_emailed", "companies_interviewed"}
  const TextColumns: set<string> := {"feedback_text", "visa_type", "reason"}

  /** The keys of the `allow` object literal. */
  const Allow: set<string> := BoolColumns + IntColumns + TextColumns + {"extra_details"}

  /**
   * The properties every object literal inherits from `Object.prototype`; `allow[k]` is a
   * function (or, for `__proto__`, the prototype itself) and so truthy for each of them.
   */
  const ObjectPrototypeMembers: set<string> := {
    "constructor", "__defineGetter__", "__defineSetter__", "hasOwnProperty", "__lookupGetter__",
    "__lookupSetter__", "isPrototypeOf", "propertyIsEnumerable", "toString", "valueOf",
    "__proto__", "toLocaleString"}

  /** `allow[k]` is truthy. */
  predicate AllowTruthy(k: string) {
    k in Allow || k in ObjectPrototypeMembers
  }

  /**
   * `obj[k] = v` on a plain object: every key becomes an own property except `__proto__`,
   * whose assignment replaces the prototype and adds no key that `update` would send.
   */
  function Assign(obj: map<string, Json>, k: string, v: Json): (r: map<string, Json>)
    ensures k != "__proto__" ==> r == obj[k := v]
    ensures k == "__proto__" ==> r == obj
  {
    if k == "__proto__" then obj else obj[k := v]
  }

  /** The digit strings `"0"`, `"1"`, … that `Object.keys` lists for an array of length `n`. */
  function IndexKeys(n: nat): (keys: set<string>)
    ensures forall k :: k in keys ==> AllDigits(k)
  {
    set i: nat | i < n :: DecimalString(i)
  }

  lemma IndexKeysValues(n: nat)
    ensures forall k :: k in IndexKeys(n) ==> AllDigits(k) && DigitsValue(k) < n
  {
    forall k | k in IndexKeys(n) ensures DigitsValue(k) < n {
      var i: nat :| i < n && k == DecimalString(i);
      DecimalStringValue(i);
    }
  }

  /** `Object.keys(patch)` with each key's value: the fields of an object, the items of an array. */
  function OwnEntries(patch: Json): (m: map<string, Json>)
    requires patch.JObj? || patch.JArr?
    ensures patch.JObj? ==> m == patch.fields
    ensures patch.JArr? ==> m.Keys == IndexKeys(|patch.items|)
  {
    if patch.JObj? then patch.fields
    else
      IndexKeysValues(|patch.items|);
      map k | k in IndexKeys(|patch.items|) :: patch.items[DigitsValue(k)]
  }

  /** The object `safePatch` ends up with. */
  function SafePatch(entries: map<string, Json>): (safe: map<string, Json>)
    ensures forall k :: k in safe <==> k in entries && AllowTruthy(k) && k != "__proto__"
    ensures forall k :: k in safe ==> safe[k] == entries[k]
  {
    map k | k in entries && AllowTruthy(k) && k != "__proto__" :: entries[k]
  }

  /** `for (const k of Object.keys(body.patch)) { if (allow[k]) safePatch[k] = body.patch[k] }` */
  method FilterPatch(entries: map<string, Json>) returns (safe: map<string, Json>)
    ensures safe == SafePatch(entries)
  {
    safe := map[];
    var todo := entries.Keys;
    while todo != {}
      invariant todo <= entries.Keys
      invariant safe == map k | k in entries && k !in todo && AllowTruthy(k) && k != "__proto__" :: entries[k]
      decreases |todo|
    {
      var k :| k in todo;
      if AllowTruthy(k) {
        safe := Assign(safe, k, entries[k]);
      }
      todo := todo - {k};
    }
  }

  /** The allowlist-only filter the comment above `allow` describes. */
  function IntendedPatch(entries: map<string, Json>): (safe: map<string, Json>)
    ensures safe.Keys == entries.Keys * Allow
    ensures forall k :: k in safe ==> safe[k] == entries[k]
  {
    map k | k in entries && k in Allow :: entries[k]
  }

  /** A value the column accepts: a JSON value of its type, or `null`. */
  predicate FitsColumn(k: string, v: Json) {
    if k in BoolColumns then v.JBool? || v.JNull?
    else if k in IntColumns then v.JNum? || v.JNull?
    else if k in TextColumns then v.JStr? || v.JNull?
    else k == "extra_details"
  }

  /** Every key names a column of the allowlist and carries a value that column accepts. */
  predicate Writable(patch: map<string, Json>) {
    forall k :: k in patch ==> k in Allow && FitsColumn(k, patch[k])
  }

  function BoolColumn(patch: map<string, Json>, k: string, current: Option<bool>): Option<bool>
    requires k in patch ==> patch[k].JBool? || patch[k].JNull?
  {
    if k !in patch then current else if patch[k].JBool? then Some(patch[k].b) else None
  }

  function IntColumn(patch: map<string, Json>, k: string, current: Option<int>): Option<int>
    requires k in patch ==> patch[k].JNum? || patch[k].JNull?
  {
    if k !in patch then current else if patch[k].JNum? then Some(patch[k].n) else None
  }

  function TextColumn(patch: map<string, Json>, k: string, current: Option<string>): Option<string>
    requires k in patch ==> patch[k].JStr? || patch[k].JNull?
  {
    if k !in patch then current else if patch[k].JStr? then Some(patch[k].s) else None
  }

  /** `.update(patch)` on one row: `None` when the database refuses it (an unknown column or a mistyped value). */
  function PatchRow(row: CancellationRow, patch: map<string, Json>): (r: Option<CancellationRow>)
    ensures r.Some? <==> Writable(patch)
  {
    if !Writable(patch) then None
    else
      assert forall k :: k in patch ==> FitsColumn(k, patch[k]);
      Some(row.(
        jobFound := BoolColumn(patch, "job_found", row.jobFound),
        foundJobWithMm := BoolColumn(patch, "found_job_with_mm", row.foundJobWithMm),
        companyProvidesLawyer := BoolColumn(patch, "company_provides_lawyer", row.companyProvidesLawyer),
        acceptedDownsell := BoolColumn(patch, "accepted_downsell", row.acceptedDownsell),
        rolesAppliedMm := IntColumn(patch, "roles_applied_mm", row.rolesAppliedMm),
        companiesEmailed := IntColumn(patch, "companies_emailed", row.companiesEmailed),
        companiesInterviewed := IntColumn(patch, "companies_interviewed", row.companiesInterviewed),
        feedbackText := TextColumn(patch, "feedback_text", row.feedbackText),
        visaType := TextColumn(patch, "visa_type", row.visaType),
        reason := TextColumn(patch, "reason", row.reason),
        extraDetails := if "extra_details" in patch then patch["extra_details"] else row.extraDetails))
  }

  /** The columns outside the allowlist agree. */
  predicate SameProtected(row: CancellationRow, row': CancellationRow) {
    && row'.userId == row.userId && row'.subscriptionId == row.subscriptionId
    && row'.downsellVariant == row.downsellVariant && row'.status == row.status
    && row'.createdAt == row.createdAt && row'.updatedAt == row.updatedAt
    && row'.init == row.init && row'.foundJob == row.foundJob && row'.foundViaMm == row.foundViaMm
    && row'.foundJobFeedback == row.foundJobFeedback && row'.reasonCode == row.reasonCode
    && row'.followUp == row.followUp
  }

  /** The body passes the payload checks: an id, and a `patch` whose `typeof` is `'object'`. */
  predicate ValidPayload(body: Json) {
    HasCancellationId(body) && TypeofObject(Prop(body, "patch"))
  }

  /**
   * The handler. The CSRF call is not awaited and never stops the request (see
   * `UtilsCsrf.UnawaitedCheckNeverBlocks`). `fails` stands for a store error. A `patch` of
   * `null` passes the `typeof` test and then makes `Object.keys` throw, which the framework
   * answers with a bare 500.
   */
  method Patch(db: Database, req: Request, fails: bool) returns (r: Response)
    modifies db
    ensures r.status in {200, 400, 500}
    ensures db.subscriptions == old(db.subscriptions)
    ensures r.status != 200 ==> unchanged(db)
    ensures var body := JsonOrNull(req.body);
            !ValidPayload(body) ==> r == Response(400, ErrorReply(Some(InvalidPayload)))
    ensures var body := JsonOrNull(req.body);
            ValidPayload(body) && body.fields["patch"].JNull? ==> r == Response(500, ErrorReply(None))
    ensures var body := JsonOrNull(req.body);
            ValidPayload(body) && !body.fields["patch"].JNull? ==>
              var target := Target(old(db.cancellations), body.fields["cancellationId"]);
              var safe := SafePatch(OwnEntries(body.fields["patch"]));
              if fails || target.None? || safe == map[] || PatchRow(old(db.cancellations)[target.value], safe).None? then
                r == Response(500, ErrorReply(Some(UpdateFailed)))
              else
                var row := PatchRow(old(db.cancellations)[target.value], safe).value;
                r == Response(200, UpdatedReply(target.value, row))
                && db.cancellations == old(db.cancellations)[target.value := row]
  {
    var body := JsonOrNull(req.body);
    if !ValidPayload(body) {
      return Response(400, ErrorReply(Some(InvalidPayload)));
    }
    var patch := body.fields["patch"];
    if patch.JNull? {
      return Response(500, ErrorReply(None));
    }
    var safe := FilterPatch(OwnEntries(patch));
    var target := Target(db.cancellations, body.fields["cancellationId"]);
    // an empty update sets no column and selects no row, which `.single()` reports as an error
    if fails || target.None? || safe == map[] {
      return Response(500, ErrorReply(Some(UpdateFailed)));
    }
    var row := PatchRow(db.cancellations[target.value], safe);
    if row.None? {
      return Response(500, ErrorReply(Some(UpdateFailed)));
    }
    db.cancellations := db.cancellations[target.value := row.value];
    r := Response(200, UpdatedReply(target.value, row.value));
  }

  /** Filtering an already filtered patch changes nothing. */
  lemma SafePatchIdempotent(entries: map<string, Json>)
    ensures SafePatch(SafePatch(entries)) == SafePatch(entries)
  {
  }

  /** Every allowlisted key survives with its value; a key neither allowlisted nor inherited is dropped. */
  lemma SafePatchKeepsAllowlisted(entries: map<string, Json>, k: string)
    ensures k in entries && k in Allow ==> k in SafePatch(entries) && SafePatch(entries)[k] == entries[k]
    ensures !AllowTruthy(k) ==> k !in SafePatch(entries)
  {
  }

  /** Without inherited names among the keys, the filter is the intended allowlist. */
  lemma SafePatchIsIntendedWithoutInheritedKeys(entries: map<string, Json>)
    requires forall k :: k in entries ==> k !in ObjectPrototypeMembers
    ensures SafePatch(entries) == IntendedPatch(entries)
  {
  }

  /** An inherited name such as `constructor` gets through the filter, and the update then fails. */
  lemma InheritedKeyBreaksUpdate(row: CancellationRow, entries: map<string, Json>, k: string)
    requires k in entries && k in ObjectPrototypeMembers && k != "__proto__"
    ensures k in SafePatch(entries) && k !in IntendedPatch(entries)
    ensures PatchRow(row, SafePatch(entries)).None?
  {
    assert k !in Allow;
  }

  /** An array `patch` has only index keys, none of them allowlisted. */
  lemma {:induction false} ArrayPatchIsEmpty(items: seq<Json>)
    ensures SafePatch(OwnEntries(JArr(items))) == map[]
  {
    forall k | k in IndexKeys(|items|) ensures !AllowTruthy(k) {
      assert AllDigits(k);
      NotAllDigitsIfLetterFirst(k);
    }
  }

  /** Every allowlisted or inherited name starts with a letter or `_`. */
  lemma NotAllDigitsIfLetterFirst(k: string)
    requires AllDigits(k)
    ensures !AllowTruthy(k)
  {
    ColumnNamesStartWithNonDigit();
    PrototypeNamesStartWithNonDigit();
  }

  lemma ColumnNamesStartWithNonDigit()
    ensures forall k :: k in Allow ==> |k| > 0 && !IsDigit(k[0])
  {
  }

  lemma PrototypeNamesStartWithNonDigit()
    ensures forall k :: k in ObjectPrototypeMembers ==> |k| > 0 && !IsDigit(k[0])
  {
  }

  /** A patch changes only allowlisted columns. */
  lemma PatchRowKeepsProtected(row: CancellationRow, patch: map<string, Json>)
    requires PatchRow(row, patch).Some?
    ensures SameProtected(row, PatchRow(row, patch).value)
    ensures row.createdAt == PatchRow(row, patch).value.createdAt
  {
  }

  /** Applying the same patch twice stores what applying it once stores. */
  lemma PatchRowIdempotent(row: CancellationRow, patch: map<string, Json>)
    requires PatchRow(row, patch).Some?
    ensures PatchRow(PatchRow(row, patch).value, patch) == PatchRow(row, patch)
  {
  }

  /** An empty patch leaves the row as it is. */
  lemma EmptyPatchKeepsRow(row: CancellationRow)
    ensures PatchRow(row, map[]) == Some(row)
  {
  }

  function BoolJson(o: Option<bool>): Json {
    if o.Some? then JBool(o.value) else JNull
  }

  function IntJson(o: Option<int>): Json {
    if o.Some? then JNum(o.value) else JNull
  }

  function TextJson(o: Option<string>): Json {
    if o.Some? then JStr(o.value) else JNull
  }

  /** An allowlisted column of a row, as the JSON value `select('*')` gives for it. */
  function ColumnJson(row: CancellationRow, k: string): Json
    requires k in Allow
  {
    match k
    case "job_found" => BoolJson(row.jobFound)
    case "found_job_with_mm" => BoolJson(row.foundJobWithMm)
    case "company_provides_lawyer" => BoolJson(row.companyProvidesLawyer)
    case "accepted_downsell" => BoolJson(row.acceptedDownsell)
    case "roles_applied_mm" => IntJson(row.rolesAppliedMm)
    case "companies_emailed" => IntJson(row.companiesEmailed)
    case "companies_interviewed" => IntJson(row.companiesInterviewed)
    case "feedback_text" => TextJson(row.feedbackText)
    case "visa_type" => TextJson(row.visaType)
    case "reason" => TextJson(row.reason)
    case _ => row.extraDetails
  }

  /** Each of the eleven columns holds the value the patch sent for it, or keeps its value when the patch has no such key. */
  lemma PatchRowWrites(row: CancellationRow, patch: map<string, Json>)
    requires PatchRow(row, patch).Some?
    ensures forall k :: k in Allow ==>
              ColumnJson(PatchRow(row, patch).value, k) == if k in patch then patch[k] else ColumnJson(row, k)
  {
    var r := PatchRow(row, patch).value;
    forall k | k in Allow
      ensures ColumnJson(r, k) == if k in patch then patch[k] else ColumnJson(row, k)
    {
      assert k in patch ==> FitsColumn(k, patch[k]);
    }
  }
}

=== FILE: utils_csrf.dfy ===
/**
 * The asynchronous double-submit check used by the cancel endpoints
 * (src/app/api/_utils/csrf.ts): the `csrf` cookie must equal the `x-csrf` header.
 */
module UtilsCsrf {
  import opened Optional
  import opened Http

  const CookieName: string := "csrf"
  const HeaderName: string := "x-csrf"
  const FailureMessage: string := "CSRF failed"

  /** A plain `Error` with the `status` property the check attaches. */
  datatype HttpError = HttpError(message: string, status: Option<int>)

  /** `x || ''`: an absent value defaults to the empty string. */
  function OrEmpty(x: Option<string>): (s: string)
    ensures x.None? ==> s == ""
    ensures x.Some? ==> s == x.value
  {
    x.GetOr("")
  }

  /** `!cookie || !header || cookie !== header` on the defaulted values. */
  predicate Fails(cookie: string, header: string)
    ensures !Fails(cookie, header) <==> cookie != "" && cookie == header
  {
    cookie == "" || header == "" || cookie != header
  }

  /** How the promise returned by `assertCsrf(request)` settles: `Some(error)` when it rejects. */
  function AssertCsrf(req: Request): (r: Option<HttpError>)
    ensures r.Some? ==> r.value == HttpError(FailureMessage, Some(403))
    ensures r.None? <==> Cookie(req, CookieName).Some? && Cookie(req, CookieName).value != ""
                         && Header(req, HeaderName) == Cookie(req, CookieName)
  {
    if Fails(OrEmpty(Cookie(req, CookieName)), OrEmpty(Header(req, HeaderName)))
    then Some(HttpError(FailureMessage, Some(403)))
    else None
  }

  /** What calling an async function does synchronously: it returns a promise and never throws. */
  datatype SyncCall = ReturnedPromise(settles: Option<HttpError>) | Threw(error: HttpError)

  function CallWithoutAwait(req: Request): (c: SyncCall)
    ensures c.ReturnedPromise? && c.settles == AssertCsrf(req)
  {
    ReturnedPromise(AssertCsrf(req))
  }

  /**
   * `try { assertCsrf(request) } catch { return 403 }` as the cancel routes write it: the catch
   * handles only a synchronous throw, so the route answers 403 exactly when the call threw.
   */
  predicate CatchRuns(req: Request) {
    CallWithoutAwait(req).Threw?
  }

  /** The unawaited check never stops a request, even one whose tokens are missing or differ. */
  lemma UnawaitedCheckNeverBlocks(req: Request)
    ensures !CatchRuns(req)
    ensures AssertCsrf(req).Some? ==> CallWithoutAwait(req).settles.Some?
  {
  }

  /** The start route's catch, had it run: `(e as {status?})?.status || 400`. */
  function StartCatchStatus(e: HttpError): (status: int)
    ensures e.status.Some? && e.status.value != 0 ==> status == e.status.value
    ensures e.status.None? || e.status.value == 0 ==> status == 400
  {
    if e.status.Some? && e.status.value != 0 then e.status.value else 400
  }

  /** With the check awaited, its rejection would reach the start route's catch as a 403. */
  lemma AwaitedRejectionIs403(req: Request)
    requires AssertCsrf(req).Some?
    ensures StartCatchStatus(AssertCsrf(req).value) == 403
  {
  }
}
